=== FILE: README.md ===
# awesome-auth-input: a Dafny model of the one-time-password group

This project models the logic of the `AuthCode` one-time-password input in
Dafny and proves properties about it. A group owns a code value, which is a
JavaScript array of strings with one entry per input box. Boxes register
their elements with the group, and the registration order is what focus
targets index. Each box turns pointer, input and key events into *intents*.
A reducer (`dispatch`) resolves each intent into three things: a new value,
a box to focus, and, for SUBMIT_CODE, the joined code for `onComplete`.
After every value change the group tests whether the code is fully entered.

The model covers:

- **Shared pieces:**
  - `Wrappers`: `Option`, `Min` and `Max`.
  - `Validation`: the three built-in descriptors plus a custom matcher, `validateChar` and `validateString`.
  - `Slots`: the value array and the JavaScript reading rules the controller relies on.
    - Sparse holes.
    - Truthiness.
    - `?? ""` and `join("")`.
    - `findIndex` over the first `n` positions.
    - `at(k)`, where a negative `k` wraps, next to `[k]`, where a negative `k` is `undefined`.
- **The library group** (src/AuthCode/OneTimePassword.tsx):
  - `Reducer`: the `dispatch` switch over the eight intents.
  - `Completion`: the fully-entered test, the value shape the keyboard keeps, and what typing and pasting mean for completion.
  - `Presenter`: one box's pointer-down target, input and change classification, and key-to-intent mapping.
  - `Controllable`: `useControllableState` and how the group uses it.
  - `Registry`: `registerInputRef`.
- **The documentation copy** (docs/snippets/AuthCode.jsx):
  - `DocsGroup`: its own reducer and key handler, each proved to agree with the library's except on named inputs.
  - The focus reset on an empty value.
  - The copy interceptor.
  - The position-recording registry, which is in `Registry`.
- **The earlier stand-alone inputs:**
  - `LegacyInput`: src/AuthCodeInput.tsx, six string boxes with a key handler, a backspace handler and a form paste handler.
  - `DigitBuffer`: src/AuthCodeInput2.tsx, one hidden text element mirrored by six display slots.
- **The inline demos** (docs/_components/AuthCodeDemo.tsx): `Demo`.

### How the code is read

- An array entry is a `Slot`: `Hole` (a sparse hole or a read past the end) or `Str(s)`.
  - CLEAR_CHAR past the end of the value extends it with holes.
  - Holes matter only to `every`, which skips them.
- Focus is an `Option<nat>` position in registration order. Registration order is assumed to match the boxes' `index` props.
- A custom descriptor's regular expression is a caller-supplied predicate on strings.
- The documentation copy's `useControllableState` (docs/snippets/AuthCode.jsx:95-115), pointer-down target (:160-199) and input and change handlers (:204-220) are the same expressions as the library's. They are modelled once, by the `Controllable` and `Presenter` members.

### Behaviour worth noting

- PASTE uses the filtered text only to decide whether to reject the paste. An accepted paste writes the **raw** characters of the pasted text: pasting `"1a2b3c"` into six numeric boxes writes all six characters, letters included (`Reducer.PasteWritesRawCharacters`).
- `onInput` treats an input value as a paste when it is longer than two characters, so a two-character value goes on to `onChange` (`Presenter.InputEventIntent`).
- In a controlled group the array reaches the parent joined and comes back split into characters, so blank entries do not survive the round trip (`Controllable.ControlledEchoDropsBlanks`).
- In src/AuthCodeInput.tsx, focus targets are read with `at`. So ArrowLeft and Backspace in box 0 send focus to the last box, and Backspace in box 0 clears only box 0. Shift+Tab in box 0 also makes the handler focus the last box, but the event is not cancelled, so the browser's own Shift+Tab then moves on from there (`LegacyInput.BackspaceInFirstBoxFocusesLastBox`).

## Model

| member | source | states |
|---|---|---|
| Validation.ValidateChar | src/AuthCode/OneTimePassword.tsx:183-191 | "" always passes; for each built-in descriptor a non-empty string passes iff it is a single character of the descriptor's class (digit, ASCII letter, either); under a custom descriptor a non-empty string passes iff the descriptor's `regex.test` accepts it |
| Validation.ValidateString | src/AuthCode/OneTimePassword.tsx:193-200 | the result contains only characters that pass, is never longer than the input, is empty iff no character passes, and is the input itself when every character passes |
| Validation.ValidateStringAppend | src/AuthCode/OneTimePassword.tsx:193-200 | filtering distributes over concatenation, so the characters kept are exactly the passing ones in their original order |
| Validation.ValidateStringIdempotent | src/AuthCode/OneTimePassword.tsx:193-200 | filtering an already-filtered string changes nothing |
| Validation.ValidateStringNumeric | src/AuthCode/OneTimePassword.tsx:755-762 | with the numeric descriptor the filter keeps only ASCII digits and is empty iff the text has no digit |
| Slots.FirstEmpty | src/AuthCode/OneTimePassword.tsx:215-217 | the result is the least position below the box count whose entry is falsy, and none exists iff every such entry is truthy |
| Slots.At | src/AuthCode/OneTimePassword.tsx:298 | `inputs.at(k)`: k itself in range, k + n for -n <= k < 0, nothing otherwise |
| Slots.Index | docs/snippets/AuthCode.jsx:445 | `inputs[k]`: a position exactly when 0 <= k < n |
| Slots.Assign | src/AuthCode/OneTimePassword.tsx:270-271 | writing at an index yields length max(len, index+1), the written entry at index and every other entry as read before (holes past the old end) |
| Slots.JoinAppend | src/AuthCode/OneTimePassword.tsx:277 | `join("")` of a concatenation is the concatenation of the joins |
| Slots.JoinChars | src/AuthCode/OneTimePassword.tsx:160-162 | splitting a string into characters and joining them gives the string back |
| Slots.JoinBlanks | src/AuthCode/OneTimePassword.tsx:253-255 | joining blanks gives "" |
| Slots.JoinPrefix | src/AuthCode/OneTimePassword.tsx:290-295 | joining text characters padded with blanks gives the text |
| Slots.JoinLength | src/AuthCode/OneTimePassword.tsx:339-343 | with at most one character per entry, the joined length is the number of filled entries |
| Slots.FilledCountFull | src/AuthCode/OneTimePassword.tsx:339-343 | the filled count equals the length iff every entry is filled |
| Slots.JoinSingles | src/AuthCode/OneTimePassword.tsx:277 | with exactly one character per entry, the joined string has one character per entry, in entry order |
| Reducer.InsertionIndex | src/AuthCode/OneTimePassword.tsx:214-222 | TYPE_CHAR writes to the target if it is filled or nothing below n is empty; otherwise to the first empty box, which is at or before the target and has every earlier box filled |
| Reducer.TypeCharStep | src/AuthCode/OneTimePassword.tsx:209-243 | an invalid character changes nothing; otherwise the value has exactly n entries, the character at the insertion index and every other entry copied, and focus goes to the next box or stays on the last |
| Reducer.RemoveCharStep | src/AuthCode/OneTimePassword.tsx:245-266 | entries before the index stay, later ones shift left by one, the rest is blank up to n; focus goes to the previous box, or box 0 from box 0 |
| Reducer.ClearCharStep | src/AuthCode/OneTimePassword.tsx:268-274 | only the entry at the index becomes "", the others are unchanged (the array grows when writing past its end), and focus does not move |
| Reducer.SubmitCodeStep | src/AuthCode/OneTimePassword.tsx:276-281 | the joined value is reported and the value is not changed |
| Reducer.PasteStep | src/AuthCode/OneTimePassword.tsx:283-303 | rejected exactly when no character validates, and a new value is dispatched exactly when some character does; that value has n entries, the first min(len, n) raw characters then blanks, focus on the last box when the text fills every box, else on box len |
| Reducer.NavigatePreviousStep | src/AuthCode/OneTimePassword.tsx:304-310 | focus goes to the previous box, and box 0 does nothing; the value is not changed |
| Reducer.NavigateNextStep | src/AuthCode/OneTimePassword.tsx:312-328 | next box when this one is filled and not last; otherwise the first empty box, or the last box when none is empty; the value is not changed |
| Reducer.ClearAllStep | src/AuthCode/OneTimePassword.tsx:330-334 | the value becomes the empty array and focus goes to box 0 |
| Reducer.Dispatch | src/AuthCode/OneTimePassword.tsx:205-336 | focus always names a registered box; only SUBMIT_CODE reports, and it reports the joined value; the navigation and submit intents never change the value; TYPE_CHAR and PASTE results have n entries; CLEAR_ALL empties |
| Reducer.RemoveCharJoin | src/AuthCode/OneTimePassword.tsx:249-254 | REMOVE_CHAR removes exactly the removed entry's text from the joined code |
| Reducer.RemoveCharOnBlanks | src/AuthCode/OneTimePassword.tsx:245-266 | REMOVE_CHAR at box 0 of an all-blank value leaves it unchanged and focuses box 0 |
| Reducer.PasteJoin | src/AuthCode/OneTimePassword.tsx:290-295 | a paste with at least one valid character is applied, and the joined code is then the first n characters of the pasted text |
| Reducer.PasteWritesRawCharacters | src/AuthCode/OneTimePassword.tsx:287-290 | pasting "1a2b3c" into six numeric boxes writes all six characters, letters included, and focuses the last box |
| Reducer.TypeSameCharAdvances | src/AuthCode/OneTimePassword.tsx:214-236 | re-typing a box's own character leaves the value unchanged and moves focus to the next box |
| Reducer.NavigateNextJumpsBackToGap | src/AuthCode/OneTimePassword.tsx:318-326 | NAVIGATE_NEXT from the last box of a code with a gap focuses the gap |
| Completion.IsCodeFullyEntered | src/AuthCode/OneTimePassword.tsx:338-345 | the test never holds without a box or on an empty join; on a value without holes and at most one character per entry it holds iff there is a box and the value has one filled entry per box |
| Completion.DispatchPreservesShape | src/AuthCode/OneTimePassword.tsx:205-336 | with a built-in descriptor every intent except CLEAR_CHAR past the end keeps the value hole-free, one character at most per entry, and either n entries or none |
| Completion.PasteCompletes | src/AuthCode/OneTimePassword.tsx:283-303 | a paste with at least one valid character is applied, and it completes the code iff the text has at least n characters |
| Completion.TypeIntoPrefix | src/AuthCode/OneTimePassword.tsx:209-243 | a valid character typed at the first empty box after a filled prefix extends the prefix and moves focus one box on |
| Completion.TypeAllFrom | src/AuthCode/OneTimePassword.tsx:209-243 | typing a string from a filled prefix writes exactly its valid characters after the prefix |
| Completion.TypingFillsInOrder | src/AuthCode/OneTimePassword.tsx:209-243 | typing a string into an empty group one character at a time yields the valid characters left-aligned, and their join is the filtered string |
| Completion.TypingCompletes | src/AuthCode/OneTimePassword.tsx:338-345 | typing completes the code iff exactly n valid characters were typed |
| Presenter.CurrentCharacter | src/AuthCode/OneTimePassword.tsx:446 | a box shows its entry's text (holes and "" read as ""), and a non-empty character iff its entry is truthy |
| Presenter.PointerDownTarget | src/AuthCode/OneTimePassword.tsx:447-451 | the target is at or before the pressed box and has every earlier box filled; when it is not the pressed box it is empty or the last box of a full code; it is the pressed box iff every earlier box is filled |
| Presenter.InputEventIntent | src/AuthCode/OneTimePassword.tsx:491-505 | the input becomes a PASTE of the whole element value iff it is a paste or drop or longer than two characters |
| Presenter.ChangeEventIntent | src/AuthCode/OneTimePassword.tsx:507-512 | a change becomes TYPE_CHAR with the whole element value iff the browser reports no pattern mismatch |
| Presenter.DoubledCharacterIsDropped | src/AuthCode/OneTimePassword.tsx:493-497 | a two-character element value is left to onChange, and with a built-in descriptor its TYPE_CHAR is rejected |
| Presenter.KeyDownIntent | src/AuthCode/OneTimePassword.tsx:514-593 | Meta+C passes through; undo, copy and redo shortcuts are cancelled; Ctrl/Meta+Backspace clears all before plain Backspace/Delete removes; Enter submits; arrows navigate or are cancelled; a key equal to the box's character re-types it; an invalid key over a fully selected filled box is cancelled; every other key, Tab and other Ctrl/Meta combinations included, dispatches nothing and passes through uncancelled |
| Presenter.ShortcutsAreSuppressed | src/AuthCode/OneTimePassword.tsx:638-651 | the undo, redo and copy shortcuts together are exactly Ctrl or Meta with z, y or c, and apart from Meta+C each one dispatches nothing and is cancelled |
| Presenter.RetypedKeyAdvancesFocus | src/AuthCode/OneTimePassword.tsx:564-567 | pressing, in a filled box before the last, the key of the character it holds dispatches TYPE_CHAR of that key, which keeps the value and focuses the next box |
| Presenter.BoxIntentsPreserveShape | src/AuthCode/OneTimePassword.tsx:491-593 | every intent a box produces keeps the value well shaped, so the fully-entered test means one filled entry per box |
| Controllable.SetState | src/AuthCode/OneTimePassword.tsx:678-703 | controlled state never changes the stored state; uncontrolled state takes the new value; the callback, if given, always receives the new value |
| Controllable.GroupState | src/AuthCode/OneTimePassword.tsx:158-164 | the group is controlled iff `value` is given; the rendered value joins back to the prop, or else to the default value (or ""), one character per entry |
| Controllable.GroupSetValue | src/AuthCode/OneTimePassword.tsx:161-163 | `onValueChange` receives the joined new array |
| Controllable.ControlledRoundTrip | src/AuthCode/OneTimePassword.tsx:158-164 | in controlled mode a change is not shown until the parent passes the reported string back; for an array of one-character entries it then renders exactly that array |
| Controllable.ControlledEchoDropsBlanks | src/AuthCode/OneTimePassword.tsx:158-164 | for a hole-free array of at most one character per entry, the echoed prop renders the array's characters only: one entry per filled box, so an array with a blank does not come back unchanged |
| Registry.DistinctCardinality | src/AuthCode/OneTimePassword.tsx:174-181 | a list of distinct elements has as many elements as entries |
| Registry.Register | src/AuthCode/OneTimePassword.tsx:174-181 | a new element is appended and the count becomes the size; null or a known element changes nothing; distinctness is kept |
| Registry.RegisterIdempotent | src/AuthCode/OneTimePassword.tsx:174-181 | registering an element twice is the same as registering it once |
| Registry.CountIsDistinctElements | src/AuthCode/OneTimePassword.tsx:172-181 | the input count equals the number of distinct registered elements |
| Registry.RegisterPositioned | docs/snippets/AuthCode.jsx:314-320 | a new element is stored at position equal to the current size; null or a known element changes nothing; positions remain the registration order |
| Registry.PositionedStaysValid | docs/snippets/AuthCode.jsx:314-320 | adding a fresh element at the current size keeps positions equal to registration order and the count equal to the size |
| Registry.InputPosition | docs/snippets/AuthCode.jsx:171-173 | the label position is at least 1: the `index` prop plus one before the element is known, the element's registration position plus one once it is registered, 1 for an unregistered element |
| Registry.LabelIsRegistrationPosition | docs/snippets/AuthCode.jsx:171-173 | a registered box's label position is its registration position plus one |
| Registry.RegistriesAgree | docs/snippets/AuthCode.jsx:314-320 | the docs registry and the library registry record the same order and count |
| DocsGroup.DocsDispatch | docs/snippets/AuthCode.jsx:337-459 | focus always names a registered box, and only SUBMIT_CODE reports |
| DocsGroup.DocsAgreesWithLibrary | docs/snippets/AuthCode.jsx:337-459 | the docs reducer equals the library's on every intent except NAVIGATE_NEXT from the last box of a full code, where the docs copy focuses nothing and the library the last box |
| DocsGroup.TypeCharAgrees | docs/snippets/AuthCode.jsx:342-369 | the docs TYPE_CHAR equals the library's |
| DocsGroup.RemoveCharAgrees | docs/snippets/AuthCode.jsx:371-387 | the docs REMOVE_CHAR equals the library's, focus included |
| DocsGroup.PasteAgrees | docs/snippets/AuthCode.jsx:404-428 | the docs PASTE equals the library's: rejected when the filtered text is empty, otherwise the raw prefix padded with blanks to n, focus included |
| DocsGroup.NavigateNextDiffers | docs/snippets/AuthCode.jsx:436-446 | the docs NAVIGATE_NEXT differs from the library's exactly on a full code from the last box |
| DocsGroup.FocusedAfterRender | docs/snippets/AuthCode.jsx:463-465 | an empty value resets the focused index to 0; otherwise it is kept |
| DocsGroup.DocsClearAllFocusesFirstBox | docs/snippets/AuthCode.jsx:449-455 | after CLEAR_ALL focus goes to box 0 and the focused index is 0 |
| DocsGroup.CopyPayload | docs/snippets/AuthCode.jsx:518-521 | the clipboard is written iff the caller did not cancel the event, and then receives the whole joined value |
| DocsGroup.CopyMatchesSubmission | docs/snippets/AuthCode.jsx:518-521 | for every value, the clipboard receives exactly the string SUBMIT_CODE reports under both the docs reducer and the library reducer |
| DocsGroup.CopyGivesWholeCode | docs/snippets/AuthCode.jsx:518-521 | copying a full well-shaped code gives its n characters in box order, whatever the selection |
| DocsGroup.DocsKeyDownIntent | docs/snippets/AuthCode.jsx:222-273 | no key produces PASTE or CLEAR_CHAR |
| DocsGroup.DocsKeysAgreeWithLibrary | docs/snippets/AuthCode.jsx:222-229 | the docs key handler equals the library's except on Ctrl+C and Ctrl/Meta+Y, which the library cancels and the docs copy does not |
| LegacyInput.InitialState | src/AuthCodeInput.tsx:14-16 | `length` empty boxes whose join is "" |
| LegacyInput.MatchesDigitsUpTo | src/AuthCodeInput.tsx:18-21 | the text matches iff it has at most `budget` characters, all ASCII digits |
| LegacyInput.IsValidCodePaste | src/AuthCodeInput.tsx:18-21 | valid iff the text is zero to `maxLength` ASCII digits |
| LegacyInput.CreateNewCode | src/AuthCodeInput.tsx:23-29 | one box per pasted character, then blanks up to six boxes |
| LegacyInput.ValidateKeyPress | src/AuthCodeInput.tsx:31-34 | a key is valid iff it is a single ASCII digit |
| LegacyInput.HandleCodePaste | src/AuthCodeInput.tsx:128-148 | a rejected paste leaves the code unchanged; an accepted one becomes the code, and focus goes to box len, or box 5 for six digits |
| LegacyInput.HandleBackSpace | src/AuthCodeInput.tsx:95-110 | a filled last box is the only box cleared and focus stays; otherwise the box and the one before it are cleared (only box 0 at index 0) and focus moves back, wrapping to the last box from box 0 |
| LegacyInput.HandleKey | src/AuthCodeInput.tsx:57-93 | out-of-range or unmounted boxes are ignored; arrows and Shift+Tab move focus; Backspace is cancelled and does exactly what the backspace handler does to the code and the focus; any other key is cancelled and writes only a single digit to the box, moving focus on |
| LegacyInput.ResetInput | src/AuthCodeInput.tsx:124-126 | six empty boxes |
| LegacyInput.SubmittedCode | src/AuthCodeInput.tsx:152-155 | the submitted string has one character per filled box, and for a full code exactly the boxes' characters in box order |
| LegacyInput.HandlersKeepShape | src/AuthCodeInput.tsx:57-148 | every handler keeps six boxes of at most one character each |
| LegacyInput.PasteThenSubmit | src/AuthCodeInput.tsx:128-155 | submitting after an accepted paste hands back exactly the pasted digits; the code is full iff six digits were pasted |
| LegacyInput.TypeDigitsWrites | src/AuthCodeInput.tsx:81-91 | pressing digit keys in consecutive boxes writes each digit to its box and leaves the other boxes alone |
| LegacyInput.TypingDigitsFillsCode | src/AuthCodeInput.tsx:81-91 | typing six digits box by box submits exactly those digits |
| LegacyInput.BackspaceInFirstBoxFocusesLastBox | src/AuthCodeInput.tsx:95-118 | Backspace in box 0 clears box 0 only and focuses the last box |
| LegacyInput.NonDigitKeyIsSwallowed | src/AuthCodeInput.tsx:81-84 | Enter or a letter is cancelled and changes nothing |
| DigitBuffer.IsDigitString | src/AuthCodeInput2.tsx:19 | the text matches iff every character is an ASCII digit |
| DigitBuffer.HandleChange | src/AuthCodeInput2.tsx:15-27 | a value with a non-digit or more than six characters is ignored; otherwise it becomes the buffer, and it is submitted iff it has exactly six digits |
| DigitBuffer.ChangeKeepsBufferValid | src/AuthCodeInput2.tsx:15-27 | the buffer always holds at most six digits, and only six-digit codes are submitted |
| DigitBuffer.SlotChar | src/AuthCodeInput2.tsx:50 | slot i shows the i-th digit, or "" past the end |
| DigitBuffer.SlotCaret | src/AuthCodeInput2.tsx:54-59 | the caret is drawn iff the slot is active and the hidden element has focus; it is the empty kind iff the slot has no digit |
| DigitBuffer.IsActive | src/AuthCodeInput2.tsx:54-57 | with a valid buffer, slot i of the six is active iff it is the slot after the last digit, or the last slot of a full code; an active slot holds a digit iff the code is full |
| DigitBuffer.ExactlyOneActiveSlot | src/AuthCodeInput2.tsx:54-57 | exactly one slot is active: the one after the last digit, or the last slot of a full code |
| DigitBuffer.ActiveSlotEmptyUntilComplete | src/AuthCodeInput2.tsx:50-57 | the active slot is empty iff the code is incomplete |
| DigitBuffer.DisplaySpellsCode | src/AuthCodeInput2.tsx:49-50 | reading the six slots left to right spells the buffer |
| Demo.GetPattern | docs/_components/AuthCodeDemo.tsx:28-37 | "alpha" selects ASCII letters, "alphanumeric" letters or digits, anything else digits, always a single character |
| Demo.LastChar | docs/_components/AuthCodeDemo.tsx:41 | the last character of the text, or "" for "" |
| Demo.AllEntered | docs/_components/AuthCodeDemo.tsx:50-51 | without holes, the flag holds iff there are `digits` entries, all non-empty; on single-character values with at least one box it equals the library's fully-entered test |
| Demo.HandleChange | docs/_components/AuthCodeDemo.tsx:39-59 | rejected iff the last character is non-empty and fails the pattern; otherwise only box `index` takes it, completion is recomputed, and focus advances iff a character was written and a next box exists |
| Demo.HandleKeyDown | docs/_components/AuthCodeDemo.tsx:61-66 | Backspace in an empty box other than the first moves focus to the previous box |
| Demo.HandleClear | docs/_components/AuthCodeDemo.tsx:68-72 | `digits` empty boxes, not complete, focus on box 0 |
| Demo.FormHandleChange | docs/_components/AuthCodeDemo.tsx:153-165 | the form demo keeps the last character if it is "" or a digit, writes it to box `index` and advances focus below box 5 |
| Demo.FormDemoIsNumericDemo | docs/_components/AuthCodeDemo.tsx:153-165 | the form demo equals the group demo at six numeric boxes |
| Demo.ChangeKeepsShape | docs/_components/AuthCodeDemo.tsx:45-52 | a change keeps `digits` single-character boxes, and the completion flag then equals the library's fully-entered test |
| Demo.TypedCharacterReplacesBox | docs/_components/AuthCodeDemo.tsx:39-47 | typing over a filled box keeps only the new character |
| Demo.DeleteThenBackspaceStepsBack | docs/_components/AuthCodeDemo.tsx:39-66 | deleting a box's text is accepted without a focus move, and Backspace in the emptied box then steps back |

## Left out

- React scheduling is not modelled: `flushSync`, `requestAnimationFrame`, `setTimeout`, `useMemo`/`useCallback` identity, and `useEffect` dependency semantics. Focus is the position an intent hands to `focusInput`, and a value change is the array handed to `setValue`.
- The completion effect's firing ("once per transition") is not modelled because it depends on React effect re-runs. Only its test, `IsCodeFullyEntered`, is modelled.
- DOM focus and selection are not modelled: `focusInput`'s `select()`/`focus()` choice, the `disabled` check, `onFocus`'s `setFocusedIndex`, and `tabIndex`. The selection state a key handler reads is a parameter (`fullySelected`).
- Browser inputs are parameters rather than modelled: `validity.patternMismatch`, `InputEvent.inputType`, the clipboard text, and whether the caller's own handler cancelled the event (`userPrevented`). `form.requestSubmit()` and the hidden input's form value are left out.
- The group-level `onPaste` handler is left out. It dispatches PASTE with the clipboard text, which is `Reducer.PasteStep`.
- The context-missing error thrown outside a group is left out, because it is a React usage check.
- `mergeRefs` and ref callbacks are left out. Elements are distinct natural numbers, and an element map is its insertion order.
- The custom descriptor's regular expression is a caller-supplied predicate. JavaScript `RegExp` semantics are not modelled.
- Text is a sequence of characters. UTF-16 code-unit lengths versus code-point splitting (`length` vs `Array.from`) are not distinguished.
- Rendering is not modelled: aria labels other than the position number, styles, the descriptors' `inputMode` and `pattern` attributes, the demo's value display, the library's `console.log` of the changed index in `onChange`, and the legacy input's `console.warn`. The browser's verdict on `pattern` reaches the model only as the `patternMismatch` parameter of `Presenter.ChangeEventIntent`.
- The browser's default Tab navigation after a handler's own focus call is not modelled. It matters for Shift+Tab in src/AuthCodeInput.tsx, whose handler does not cancel the event.
- The form demo's submit handler is left out. It records `values.join("")`, which is `Slots.Join`.
- Stories, `docs/snippets/Demo.jsx`, `src/App.tsx`, `src/index.ts` and build configuration are not part of this model.
- Presenter.KeyDownIntent: the handler's `hasValue` reads the element's displayed value. The model takes that to be the box's current character, which is what the component renders.
- DocsGroup.DocsDispatch: its contract covers only focus and submission. The agreement lemma `DocsGroup.DocsAgreesWithLibrary` carries the rest, by equating it with `Reducer.Dispatch` wherever the two copies agree.

=== FILE: completion.dfy ===
/** The "code is fully entered" test the group runs after every render, the
    shape of the value that the keyboard intents keep, and what typing and
    pasting mean for completion. */
module Completion {
  import opened Wrappers
  import opened Validation
  import opened Slots
  import opened Reducer

  /** The watcher's test: the joined value is as long as the box count, no
      present entry is "" (`every` skips holes), and there is at least one
      box. On a value without holes whose entries hold at most one character
      it means exactly: one entry per box, all of them filled. */
  function IsCodeFullyEntered(value: Value, n: nat): (r: bool)
    ensures r ==> n > 0 && Join(value) != ""
    ensures Dense(value) && SingleChars(value) ==>
              (r <==> n > 0 && |value| == n && forall i :: 0 <= i < |value| ==> Filled(value[i]))
  {
    var fully := && |Join(value)| == n
                 && (forall i :: 0 <= i < |value| && value[i].Str? ==> value[i].s != "")
                 && n > 0;
    if SingleChars(value) then
      JoinLength(value);
      FilledCountFull(value);
      fully
    else fully
  }

  /** The shape every value reached through typing, deleting, pasting and
      clearing has: no holes, at most one character per entry, and either
      one entry per box or none at all (after CLEAR_ALL). */
  predicate WellShaped(value: Value, n: nat) {
    Dense(value) && SingleChars(value) && (|value| == n || |value| == 0)
  }

  /** With a built-in descriptor, every intent other than a CLEAR_CHAR past
      the end keeps the value well shaped. */
  lemma DispatchPreservesShape(value: Value, n: nat, v: Validation, a: Action)
    requires WellShaped(value, n)
    requires v.IsBuiltin()
    requires a.ClearChar? ==> a.index < |value|
    ensures Dispatch(value, n, v, a).update.Some? ==> WellShaped(Dispatch(value, n, v, a).update.value, n)
  {
  }

  /** An accepted PASTE completes the code exactly when the text is at least
      as long as the box count, whether or not its characters validate. */
  lemma PasteCompletes(n: nat, v: Validation, text: string)
    requires exists k :: 0 <= k < |text| && ValidCharacter(v, text[k])
    ensures PasteStep(n, v, text).update.Some?
    ensures IsCodeFullyEntered(PasteStep(n, v, text).update.value, n) <==> n > 0 && |text| >= n
  {
    var r := PasteStep(n, v, text).update.value;
    assert Dense(r) && SingleChars(r) by {
      forall i | 0 <= i < |r|
        ensures r[i].Str? && |Text(r[i])| <= 1
      {
        if i < Min(|text|, n) {
          assert r[i] == Str([text[i]]);
        } else {
          assert r[i] == Blank;
        }
      }
    }
    if |text| < n {
      assert !Filled(r[|text|]);
    }
  }

  // ---------------------------------------------------------------------
  // Typing a sequence of characters one at a time
  // ---------------------------------------------------------------------

  /** Types the characters of `s` one after another, each into the box that
      holds focus, focus moving wherever TYPE_CHAR sends it. */
  function TypeAll(value: Value, n: nat, v: Validation, s: string, focus: nat): Value
    decreases |s|
  {
    if s == "" then value
    else
      var e := TypeCharStep(value, n, v, [s[0]], focus);
      TypeAll(e.update.GetOr(value), n, v, s[1..], e.focus.GetOr(focus))
  }

  /** One valid character typed into the first empty box of a filled prefix
      extends the prefix and moves focus to the following box. */
  lemma TypeIntoPrefix(value: Value, n: nat, v: Validation, done: string, c: char)
    requires |done| < n
    requires value == Prefix(done, n) || (value == [] && done == "")
    requires ValidCharacter(v, c)
    ensures TypeCharStep(value, n, v, [c], |done|).update == Some(Prefix(done + [c], n))
    ensures TypeCharStep(value, n, v, [c], |done|).focus == Some(if |done| + 1 < n then |done| + 1 else |done|)
  {
    var k := |done|;
    forall j | 0 <= j < k
      ensures Get(value, j) == Str([done[j]])
    {
      assert value == Prefix(done, n);
      assert value[j] == Chars(done)[j];
    }
    assert !Filled(Get(value, k)) by {
      if value == Prefix(done, n) {
        assert value[k] == Blanks(n - k)[0];
      }
    }
    var ins := InsertionIndex(value, n, k);
    assert ins == k;
    var r := TypeCharStep(value, n, v, [c], k).update.value;
    var p := Prefix(done + [c], n);
    forall i | 0 <= i < n
      ensures r[i] == p[i]
    {
      if i < k {
        assert r[i] == Str(Text(Get(value, i)));
        assert p[i] == Chars(done + [c])[i];
      } else if i == k {
        assert p[i] == Chars(done + [c])[i];
      } else {
        assert r[i] == Str(Text(Get(value, i)));
        assert p[i] == Blanks(n - (k + 1))[i - (k + 1)];
        if value == Prefix(done, n) {
          assert value[i] == Blanks(n - k)[i - k];
        }
      }
    }
    assert r == p;
  }

  /** Regrouping a concatenation; proved on its own because inside
      TypeAllFrom the same step drowns in that lemma's context. */
  lemma AppendAssociative(a: string, b: string, c: string)
    ensures a + b + c == a + (b + c)
  {
  }

  lemma {:induction false} TypeAllFrom(value: Value, n: nat, v: Validation, done: string, rest: string, focus: nat)
    requires n > 0
    requires |done| + |ValidateString(v, rest)| <= n
    requires value == Prefix(done, n) || (value == [] && done == "")
    requires focus == if |done| < n then |done| else n - 1
    ensures ValidateString(v, rest) != "" ==> TypeAll(value, n, v, rest, focus) == Prefix(done + ValidateString(v, rest), n)
    ensures ValidateString(v, rest) == "" ==> TypeAll(value, n, v, rest, focus) == value
    decreases |rest|
  {
    if rest != "" {
      var c := rest[0];
      var tail := ValidateString(v, rest[1..]);
      if ValidCharacter(v, c) {
        assert ValidateString(v, rest) == [c] + tail;
        assert |done| < n && focus == |done|;
        TypeIntoPrefix(value, n, v, done, c);
        var next := if |done| + 1 < n then |done| + 1 else |done|;
        assert TypeAll(value, n, v, rest, focus) == TypeAll(Prefix(done + [c], n), n, v, rest[1..], next);
        TypeAllFrom(Prefix(done + [c], n), n, v, done + [c], rest[1..], next);
        AppendAssociative(done, [c], tail);
      } else {
        assert ValidateString(v, rest) == tail;
        assert TypeCharStep(value, n, v, [c], focus) == NoEffect;
        assert TypeAll(value, n, v, rest, focus) == TypeAll(value, n, v, rest[1..], focus);
        TypeAllFrom(value, n, v, done, rest[1..], focus);
      }
    }
  }

  /** Typing characters one at a time from the empty value, starting at box
      0, fills the boxes from the left with exactly the characters that
      validate, invalid ones being dropped. */
  lemma TypingFillsInOrder(n: nat, v: Validation, s: string)
    requires n > 0
    requires |ValidateString(v, s)| <= n
    ensures Join(TypeAll([], n, v, s, 0)) == ValidateString(v, s)
    ensures ValidateString(v, s) != "" ==> TypeAll([], n, v, s, 0) == Prefix(ValidateString(v, s), n)
  {
    TypeAllFrom([], n, v, "", s, 0);
    assert "" + ValidateString(v, s) == ValidateString(v, s);
    if ValidateString(v, s) != "" {
      JoinPrefix(ValidateString(v, s), n);
    }
  }

  /** Typing completes the code exactly when `n` valid characters were typed. */
  lemma TypingCompletes(n: nat, v: Validation, s: string)
    requires n > 0
    requires |ValidateString(v, s)| <= n
    ensures IsCodeFullyEntered(TypeAll([], n, v, s, 0), n) <==> |ValidateString(v, s)| == n
  {
    TypingFillsInOrder(n, v, s);
    var t := ValidateString(v, s);
    var r := TypeAll([], n, v, s, 0);
    if t != "" {
      assert Dense(r) && SingleChars(r) by {
        forall i | 0 <= i < n
          ensures r[i].Str? && |Text(r[i])| <= 1
        {
          if i < |t| {
            assert r[i] == Chars(t)[i];
          } else {
            assert r[i] == Blanks(n - |t|)[i - |t|];
          }
        }
      }
      if |t| < n {
        assert r[|t|] == Blanks(n - |t|)[0];
      } else {
        assert forall i :: 0 <= i < n ==> r[i] == Chars(t)[i];
      }
    }
  }
}

=== FILE: controllable.dfy ===
/** The controlled/uncontrolled state bridge (`useControllableState`) and the
    way the group feeds it: the string props become arrays of characters, and
    every array handed to `setValue` reaches `onValueChange` joined. */
module Controllable {
  import opened Wrappers
  import opened Slots

  /** `prop` is the `value` prop (None when `undefined`); `internal` is the
      component's own state, seeded with the default value. */
  datatype State<T> = State(prop: Option<T>, internal: T) {

    predicate IsControlled() {
      prop.Some?
    }

    /** The value the component renders. */
    function Current(): T {
      if prop.Some? then prop.value else internal
    }
  }

  /** The state after `setState`, and the argument `onValueChange` received
      (None when no callback is given). */
  datatype SetResult<T> = SetResult(state: State<T>, notified: Option<T>)

  /** `setState(newValue)`: the internal state changes only when
      uncontrolled; the callback, when present, always hears of the value. */
  function SetState<T(==)>(st: State<T>, newValue: T, hasCallback: bool): (r: SetResult<T>)
    ensures r.state.prop == st.prop
    ensures st.IsControlled() ==> r.state == st && r.state.Current() == st.Current()
    ensures !st.IsControlled() ==> r.state.Current() == newValue
    ensures r.notified.Some? <==> hasCallback
    ensures r.notified.Some? ==> r.notified.value == newValue
  {
    var internal := if !st.IsControlled() then newValue else st.internal;
    SetResult(State(st.prop, internal), if hasCallback then Some(newValue) else None)
  }

  /** The group's state hook: a `value` prop is split into characters; the
      default value likewise, or `[]` when it is absent or "". */
  function GroupState(userValue: Option<string>, defaultValue: Option<string>): (st: State<Value>)
    ensures st.IsControlled() <==> userValue.Some?
    ensures userValue.Some? ==> Join(st.Current()) == userValue.value
    ensures userValue.None? ==> Join(st.Current()) == defaultValue.GetOr("")
    ensures Dense(st.Current()) && SingleChars(st.Current())
    ensures forall i :: 0 <= i < |st.Current()| ==> |Text(st.Current()[i])| == 1
  {
    var defaultChars := if defaultValue.Some? && defaultValue.value != "" then Chars(defaultValue.value) else [];
    var st := State(if userValue.Some? then Some(Chars(userValue.value)) else None, defaultChars);
    JoinChars(if userValue.Some? then userValue.value else defaultValue.GetOr(""));
    st
  }

  /** The group's `setValue`: the callback receives the joined string. */
  function GroupSetValue(st: State<Value>, newValue: Value, hasCallback: bool): (r: (State<Value>, Option<string>))
    ensures r.0.prop == st.prop
    ensures !st.IsControlled() ==> r.0.Current() == newValue
    ensures st.IsControlled() ==> r.0.Current() == st.Current()
    ensures r.1 == (if hasCallback then Some(Join(newValue)) else None)
  {
    var next := SetState(st, newValue, hasCallback);
    (next.state, if next.notified.Some? then Some(Join(next.notified.value)) else None)
  }

  /** In controlled mode a `setValue` round trip leaves the rendered value
      alone until the caller passes the reported string back as the prop,
      which then renders exactly that value again, provided every entry
      holds one character. */
  lemma ControlledRoundTrip(userValue: string, newValue: Value)
    requires Dense(newValue)
    requires forall i :: 0 <= i < |newValue| ==> |newValue[i].s| == 1
    ensures GroupSetValue(GroupState(Some(userValue), None), newValue, true).0.Current() == Chars(userValue)
    ensures GroupState(Some(Join(newValue)), None).Current() == newValue
  {
    JoinSingles(newValue);
    var s := Join(newValue);
    assert forall i :: 0 <= i < |newValue| ==> newValue[i] == Str([s[i]]);
    assert Chars(s) == newValue;
  }

  /** The echo keeps only the characters: the blank entries of a reported
      array (the padding REMOVE_CHAR and a short PASTE add) do not come back,
      so the rendered array has one entry per filled box and differs from the
      reported one whenever that had a blank. */
  lemma ControlledEchoDropsBlanks(newValue: Value)
    requires Dense(newValue) && SingleChars(newValue)
    ensures GroupState(Some(Join(newValue)), None).Current() == Chars(Join(newValue))
    ensures |GroupState(Some(Join(newValue)), None).Current()| == FilledCount(newValue)
    ensures (exists i :: 0 <= i < |newValue| && !Filled(newValue[i])) ==>
              GroupState(Some(Join(newValue)), None).Current() != newValue
  {
  }
}

=== FILE: demo.dfy ===
/** The simplified inline demos of the documentation site
    (docs/_components/AuthCodeDemo.tsx): `AuthCodeDemo`, a group of `digits`
    one-character boxes with a completion flag and a clear button, and
    `AuthCodeFormDemo`, six numeric boxes inside a submitting form. */
module Demo {
  import opened Wrappers
  import opened Validation
  import opened Slots
  import opened Completion

  /** `getPattern()`: the `validation` prop selects one of the three
      single-character classes; any other value (and the default) is
      numeric. */
  function GetPattern(validation: string): (v: Validation)
    ensures v.IsBuiltin()
    ensures forall c :: Test(v, [c]) <==>
              if validation == "alpha" then IsAsciiLetter(c)
              else if validation == "alphanumeric" then IsAsciiLetter(c) || IsDigit(c)
              else IsDigit(c)
    ensures forall s :: |s| != 1 ==> !Test(v, s)
  {
    if validation == "alpha" then Alpha
    else if validation == "alphanumeric" then Alphanumeric
    else Numeric
  }

  /** `value.slice(-1)`: the last character, or "" for "". */
  function LastChar(value: string): (c: string)
    ensures |c| <= 1
    ensures c == "" <==> value == ""
    ensures c != "" ==> c[0] == value[|value| - 1] && value == value[..|value| - 1] + c
  {
    if value == "" then "" else [value[|value| - 1]]
  }

  /** The state after a change in box `index`, and the box focused next. */
  datatype Change = Change(values: Value, complete: bool, focus: Option<nat>)

  /** The completion test: `every` entry is not "" (holes are skipped) and
      there are exactly `digits` entries. */
  function AllEntered(values: Value, digits: nat): (r: bool)
    ensures Dense(values) ==> (r <==> |values| == digits && forall j :: 0 <= j < |values| ==> Filled(values[j]))
    ensures Dense(values) && SingleChars(values) && digits > 0 ==> (r <==> IsCodeFullyEntered(values, digits))
  {
    (forall j :: 0 <= j < |values| && values[j].Str? ==> values[j].s != "") && |values| == digits
  }

  /** `handleChange(index, value)` of `AuthCodeDemo`: only the last character
      of the box's new text is kept; a non-empty one outside the class is
      ignored (None); otherwise it is written to the box, the completion
      flag is recomputed, and a non-empty character moves focus to the
      next box if there is one. */
  function HandleChange(values: Value, digits: nat, v: Validation, index: nat, value: string): (r: Option<Change>)
    ensures r.None? <==> LastChar(value) != "" && !Test(v, LastChar(value))
    ensures r.Some? ==> r.value.values == Assign(values, index, Str(LastChar(value)))
    ensures r.Some? ==> (r.value.complete <==> AllEntered(r.value.values, digits))
    ensures r.Some? ==> (r.value.focus.Some? <==> value != "" && index + 1 < digits)
    ensures r.Some? && r.value.focus.Some? ==> r.value.focus.value == index + 1
  {
    var ch := LastChar(value);
    if ch != "" && !Test(v, ch) then None
    else
      var newValues := Assign(values, index, Str(ch));
      var isComplete := AllEntered(newValues, digits);
      Some(Change(newValues, isComplete, if ch != "" && index + 1 < digits then Some(index + 1) else None))
  }

  /** `handleKeyDown`: Backspace in an empty box other than the first moves
      focus to the previous box; the default action is never cancelled. */
  function HandleKeyDown(values: Value, index: nat, key: string): (focus: Option<nat>)
    ensures focus.Some? <==> key == "Backspace" && !Filled(Get(values, index)) && index > 0
    ensures focus.Some? ==> focus.value + 1 == index
  {
    if key == "Backspace" && !Filled(Get(values, index)) && index > 0 then Some(index - 1) else None
  }

  /** `handleClear`: every box emptied, not complete, focus on box 0. */
  function HandleClear(digits: nat): (r: Change)
    ensures |r.values| == digits && Join(r.values) == "" && !r.complete
    ensures forall j :: 0 <= j < digits ==> !Filled(r.values[j])
    ensures r.focus == (if digits > 0 then Some(0) else None)
  {
    JoinBlanks(digits);
    Change(Blanks(digits), false, if digits > 0 then Some(0) else None)
  }

  /** `handleChange(index, value)` of `AuthCodeFormDemo`: six numeric boxes
      and no completion flag. */
  function FormHandleChange(values: Value, index: nat, value: string): (r: Option<(Value, Option<nat>)>)
    ensures r.None? <==> LastChar(value) != "" && !(|LastChar(value)| == 1 && IsDigit(LastChar(value)[0]))
    ensures r.Some? ==> r.value.0 == Assign(values, index, Str(LastChar(value)))
    ensures r.Some? ==> (r.value.1.Some? <==> value != "" && index < 5)
  {
    var ch := LastChar(value);
    if ch != "" && !(|ch| == 1 && IsDigit(ch[0])) then None
    else Some((Assign(values, index, Str(ch)), if ch != "" && index < 5 then Some(index + 1) else None))
  }

  // ---------------------------------------------------------------------
  // Properties
  // ---------------------------------------------------------------------

  /** The form demo is the group demo at six numeric boxes, without the
      completion flag. */
  lemma FormDemoIsNumericDemo(values: Value, index: nat, value: string)
    ensures FormHandleChange(values, index, value).None? <==> HandleChange(values, 6, GetPattern("numeric"), index, value).None?
    ensures FormHandleChange(values, index, value).Some? ==>
              && FormHandleChange(values, index, value).value.0 == HandleChange(values, 6, GetPattern("numeric"), index, value).value.values
              && FormHandleChange(values, index, value).value.1 == HandleChange(values, 6, GetPattern("numeric"), index, value).value.focus
  {
  }

  /** The demo's shape: one entry per box, no holes, at most one character
      each. */
  predicate DemoShaped(values: Value, digits: nat) {
    |values| == digits && Dense(values) && SingleChars(values)
  }

  /** A change in a rendered box keeps the demo shaped, and on a shaped
      value the demo's completion flag is the library's watcher test (the
      demo additionally calls an empty group of zero boxes complete). */
  lemma ChangeKeepsShape(values: Value, digits: nat, v: Validation, index: nat, value: string)
    requires DemoShaped(values, digits) && index < digits
    requires HandleChange(values, digits, v, index, value).Some?
    ensures DemoShaped(HandleChange(values, digits, v, index, value).value.values, digits)
    ensures HandleChange(values, digits, v, index, value).value.complete <==>
              IsCodeFullyEntered(HandleChange(values, digits, v, index, value).value.values, digits)
  {
    var r := HandleChange(values, digits, v, index, value).value.values;
    assert r == values[index := Str(LastChar(value))];
    assert DemoShaped(r, digits);
    assert digits > 0;
  }

  /** Typing over a filled box keeps only the newly typed character. */
  lemma TypedCharacterReplacesBox(values: Value, digits: nat, v: Validation, index: nat, c: char)
    requires DemoShaped(values, digits) && index < digits
    requires Test(v, [c])
    ensures HandleChange(values, digits, v, index, Text(values[index]) + [c]).Some?
    ensures HandleChange(values, digits, v, index, Text(values[index]) + [c]).value.values == values[index := Str([c])]
  {
  }

  /** Clearing a box by deleting its text is always accepted, never moves
      focus, and the following Backspace in the now empty box steps back. */
  lemma DeleteThenBackspaceStepsBack(values: Value, digits: nat, v: Validation, index: nat)
    requires DemoShaped(values, digits) && 0 < index < digits
    ensures HandleChange(values, digits, v, index, "").Some?
    ensures HandleChange(values, digits, v, index, "").value.focus.None?
    ensures HandleKeyDown(HandleChange(values, digits, v, index, "").value.values, index, "Backspace") == Some(index - 1)
  {
  }
}

=== FILE: digit_buffer.dfy ===
/** The second stand-alone input (src/AuthCodeInput2.tsx): one hidden text
    element holds the whole code as a string, and six display slots mirror
    it, the slot where the next digit will appear being highlighted. */
module DigitBuffer {
  import opened Wrappers
  import opened Validation
  import opened Slots

  /** `AUTH_CODE_LENGTH`. */
  const CodeLength: nat := 6

  /** `/^\d*$/`, matched one character at a time. */
  function IsDigitString(s: string): (r: bool)
    ensures r <==> forall i :: 0 <= i < |s| ==> IsDigit(s[i])
    decreases |s|
  {
    s == "" || (IsDigit(s[0]) && IsDigitString(s[1..]))
  }

  /** The buffer after a change event, and the code handed to `onSubmit`,
      if any. */
  datatype ChangeResult = ChangeResult(code: string, submitted: Option<string>)

  /** `handleChange`: a value with a non-digit, or longer than six, is
      ignored; otherwise it becomes the buffer, and a six-digit value is
      submitted. */
  function HandleChange(code: string, value: string): (r: ChangeResult)
    ensures IsDigitString(value) && |value| <= CodeLength ==> r.code == value
    ensures !(IsDigitString(value) && |value| <= CodeLength) ==> r == ChangeResult(code, None)
    ensures r.submitted.Some? <==> IsDigitString(value) && |value| == CodeLength
    ensures r.submitted.Some? ==> r.submitted.value == value && r.code == value
  {
    if !IsDigitString(value) then ChangeResult(code, None)
    else if |value| <= CodeLength then
      ChangeResult(value, if |value| == CodeLength then Some(value) else None)
    else ChangeResult(code, None)
  }

  /** What the component keeps in its buffer: at most six digits. */
  predicate ValidBuffer(code: string) {
    IsDigitString(code) && |code| <= CodeLength
  }

  /** Every change keeps the buffer valid, and whatever is submitted is a
      complete six-digit code. */
  lemma ChangeKeepsBufferValid(code: string, value: string)
    requires ValidBuffer(code)
    ensures ValidBuffer(HandleChange(code, value).code)
    ensures HandleChange(code, value).submitted.Some? ==>
              ValidBuffer(HandleChange(code, value).submitted.value) &&
              |HandleChange(code, value).submitted.value| == CodeLength
  {
  }

  /** The character slot `index` shows: `code[index] || ""`. */
  function SlotChar(code: string, index: nat): (c: string)
    ensures index < |code| ==> c == [code[index]]
    ensures index >= |code| ==> c == ""
  {
    if index < |code| then [code[index]] else ""
  }

  /** The highlighted slot: the one the next digit goes into, or the last
      slot once the code is full. */
  function IsActive(code: string, index: nat): (r: bool)
    ensures ValidBuffer(code) && index < CodeLength ==> (r <==> index == Min(|code|, CodeLength - 1))
    ensures ValidBuffer(code) && r && index < CodeLength ==> (index < |code| <==> |code| == CodeLength)
  {
    |code| == index || (|code| == CodeLength && index == CodeLength - 1)
  }

  /** Whether slot `index` draws the caret, and whether that caret is the
      empty-slot kind. */
  datatype Caret = NoCaret | Caret(overEmptySlot: bool)

  function SlotCaret(code: string, index: nat, inputFocused: bool): (r: Caret)
    ensures r.Caret? <==> IsActive(code, index) && inputFocused
    ensures r.Caret? ==> (r.overEmptySlot <==> index >= |code|)
  {
    if IsActive(code, index) && inputFocused then Caret(SlotChar(code, index) == "") else NoCaret
  }

  /** With a valid buffer exactly one of the six slots is highlighted: the
      slot after the last digit, or the last slot when all six are there. */
  lemma ExactlyOneActiveSlot(code: string)
    requires ValidBuffer(code)
    ensures forall i :: 0 <= i < CodeLength ==> (IsActive(code, i) <==> i == Min(|code|, CodeLength - 1))
  {
  }

  /** The highlighted slot is empty exactly while the code is incomplete. */
  lemma ActiveSlotEmptyUntilComplete(code: string)
    requires ValidBuffer(code)
    ensures SlotChar(code, Min(|code|, CodeLength - 1)) == "" <==> |code| < CodeLength
  {
  }

  /** The six slots as displayed. */
  function Display(code: string): Value {
    seq(CodeLength, i requires 0 <= i < CodeLength => Str(SlotChar(code, i)))
  }

  /** Reading the six slots left to right spells the buffer. */
  lemma DisplaySpellsCode(code: string)
    requires ValidBuffer(code)
    ensures Dense(Display(code)) && SingleChars(Display(code))
    ensures Join(Display(code)) == code
  {
    var d := Display(code);
    assert d == Chars(code) + Blanks(CodeLength - |code|);
    JoinAppend(Chars(code), Blanks(CodeLength - |code|));
    JoinChars(code);
    JoinBlanks(CodeLength - |code|);
  }
}

=== FILE: docs_group.dfy ===
/** The second copy of the group controller kept for the documentation site
    (docs/snippets/AuthCode.jsx). Its reducer addresses boxes with
    `inputs[k]` instead of `inputs.at(k)`, its key handler lacks the copy and
    redo shortcuts, and it adds a copy interceptor and a focus reset on an
    empty value. */
module DocsGroup {
  import opened Wrappers
  import opened Validation
  import opened Slots
  import opened Reducer
  import opened Completion
  import opened Presenter

  /** The docs copy's `dispatch`, written out on its own. */
  function DocsDispatch(value: Value, n: nat, v: Validation, a: Action): (e: Effect)
    ensures e.focus.Some? ==> e.focus.value < n
    ensures e.submitted.Some? <==> a.SubmitCode?
  {
    match a
    case TypeChar(ch, target) =>
      if !ValidateChar(v, ch) then NoEffect
      else
        var firstEmpty := FirstEmpty(value, n);
        var ins := if Filled(Get(value, target)) || firstEmpty.None? then target else firstEmpty.value;
        var newValue := seq(n, i requires 0 <= i < n => if i == ins then Str(ch) else Str(Text(Get(value, i))));
        Effect(Some(newValue), if ins + 1 < n then Index(n, ins + 1) else Index(n, ins), None)
    case RemoveChar(index) =>
      var compacted := value[..Min(index, |value|)] + value[Min(index + 1, |value|)..];
      Effect(Some(compacted + Blanks(Max(0, n - |compacted|))), Index(n, if index != 0 then index - 1 else 0), None)
    case ClearChar(index) =>
      Effect(Some(Assign(value, index, Blank)), None, None)
    case SubmitCode =>
      Effect(None, None, Some(Join(value)))
    case Paste(text) =>
      if ValidateString(v, text) == "" then NoEffect
      else
        var pasted := Chars(text[..Min(|text|, n)]);
        Effect(Some(pasted + Blanks(Max(0, n - |text|))), if |pasted| == n then Index(n, n - 1) else Index(n, |text|), None)
    case NavigatePrevious(index) =>
      if index > 0 then Effect(None, Index(n, index - 1), None) else NoEffect
    case NavigateNext(index) =>
      if Filled(Get(value, index)) && index + 1 < n then Effect(None, Index(n, index + 1), None)
      else
        var firstEmpty := FirstEmpty(value, n);
        Effect(None, Index(n, if firstEmpty.Some? then firstEmpty.value else -1), None)
    case ClearAll =>
      Effect(Some([]), Index(n, 0), None)
  }

  /** The two reducers agree on every intent but one: NAVIGATE_NEXT from the
      last box (or beyond) of a completely filled code, where the library
      focuses the last box (`inputs.at(-1)`) and the docs copy focuses
      nothing (`inputs[-1]` is `undefined`). */
  lemma DocsAgreesWithLibrary(value: Value, n: nat, v: Validation, a: Action)
    ensures DocsDispatch(value, n, v, a) != Dispatch(value, n, v, a) <==>
              a.NavigateNext? && n > 0 && a.index + 1 >= n && forall j :: 0 <= j < n ==> Filled(Get(value, j))
    ensures DocsDispatch(value, n, v, a) != Dispatch(value, n, v, a) ==>
              DocsDispatch(value, n, v, a) == NoEffect && Dispatch(value, n, v, a) == Effect(None, Some(n - 1), None)
  {
    match a {
      case TypeChar(ch, target) => TypeCharAgrees(value, n, v, ch, target);
      case RemoveChar(index) => RemoveCharAgrees(value, n, v, index);
      case ClearChar(index) =>
      case SubmitCode =>
      case Paste(text) => PasteAgrees(value, n, v, text);
      case NavigatePrevious(index) =>
      case NavigateNext(index) => NavigateNextDiffers(value, n, v, index);
      case ClearAll =>
    }
  }

  lemma TypeCharAgrees(value: Value, n: nat, v: Validation, ch: string, target: nat)
    ensures DocsDispatch(value, n, v, TypeChar(ch, target)) == Dispatch(value, n, v, TypeChar(ch, target))
  {
  }

  lemma RemoveCharAgrees(value: Value, n: nat, v: Validation, index: nat)
    ensures DocsDispatch(value, n, v, RemoveChar(index)) == Dispatch(value, n, v, RemoveChar(index))
  {
  }

  lemma PasteAgrees(value: Value, n: nat, v: Validation, text: string)
    ensures DocsDispatch(value, n, v, Paste(text)) == Dispatch(value, n, v, Paste(text))
  {
  }

  lemma NavigateNextDiffers(value: Value, n: nat, v: Validation, index: nat)
    ensures DocsDispatch(value, n, v, NavigateNext(index)) != Dispatch(value, n, v, NavigateNext(index)) <==>
              n > 0 && index + 1 >= n && forall j :: 0 <= j < n ==> Filled(Get(value, j))
    ensures DocsDispatch(value, n, v, NavigateNext(index)) != Dispatch(value, n, v, NavigateNext(index)) ==>
              DocsDispatch(value, n, v, NavigateNext(index)) == NoEffect &&
              Dispatch(value, n, v, NavigateNext(index)) == Effect(None, Some(n - 1), None)
  {
  }

  /** The docs copy's effect on the focused index: whenever the value is
      empty, the focused index is reset to box 0. */
  function FocusedAfterRender(value: Value, focusedIndex: nat): (r: nat)
    ensures |value| == 0 ==> r == 0
    ensures |value| > 0 ==> r == focusedIndex
  {
    if |value| == 0 then 0 else focusedIndex
  }

  /** After CLEAR_ALL in the docs copy both the scheduled focus and the tab
      stop go back to box 0. */
  lemma DocsClearAllFocusesFirstBox(value: Value, n: nat, v: Validation, focusedIndex: nat)
    requires n > 0
    ensures DocsDispatch(value, n, v, ClearAll).focus == Some(0)
    ensures FocusedAfterRender(DocsDispatch(value, n, v, ClearAll).update.value, focusedIndex) == 0
  {
  }

  /** The copy interceptor: unless the caller's own `onCopy` cancelled the
      event, the clipboard receives the whole joined value, whatever part of
      it the user had selected. */
  function CopyPayload(value: Value, userPrevented: bool): (r: Option<string>)
    ensures userPrevented <==> r.None?
    ensures r.Some? ==> r.value == Join(value)
  {
    if userPrevented then None else Some(Join(value))
  }

  /** Whatever is in the boxes, the clipboard receives the same string that
      SUBMIT_CODE would hand to the completion callback. */
  lemma CopyMatchesSubmission(value: Value, n: nat, v: Validation)
    ensures CopyPayload(value, false) == DocsDispatch(value, n, v, SubmitCode).submitted
    ensures CopyPayload(value, false) == Dispatch(value, n, v, SubmitCode).submitted
  {
  }

  /** Copying a completely entered, well-shaped code puts exactly its `n`
      characters on the clipboard, one per box in box order. */
  lemma CopyGivesWholeCode(value: Value, n: nat)
    requires WellShaped(value, n) && IsCodeFullyEntered(value, n)
    ensures CopyPayload(value, false).Some?
    ensures |CopyPayload(value, false).value| == n
    ensures forall i :: 0 <= i < n ==> [CopyPayload(value, false).value[i]] == value[i].s
  {
    assert forall i :: 0 <= i < |value| ==> |value[i].s| == 1 by {
      forall i | 0 <= i < |value|
        ensures |value[i].s| == 1
      {
        assert Filled(value[i]) && |Text(value[i])| <= 1;
      }
    }
    JoinSingles(value);
  }

  /** The docs copy's key handler: as the library's, without the copy and
      redo shortcut checks. */
  function DocsKeyDownIntent(userPrevented: bool, ev: KeyEvent, index: nat, value: Value,
                             v: Validation, fullySelected: bool): (r: KeyOutcome)
    ensures r.intent.Some? ==> !r.intent.value.Paste? && !r.intent.value.ClearChar?
  {
    var current := CurrentCharacter(value, index);
    if userPrevented then KeyOutcome(None, false)
    else if ev.meta && ev.key == "c" then KeyOutcome(None, false)
    else if (ev.meta || ev.ctrl) && ev.key == "z" then KeyOutcome(None, true)
    else if (ev.meta || ev.ctrl) && ev.key == "Backspace" then KeyOutcome(Some(ClearAll), false)
    else if ev.key == "Delete" || ev.key == "Backspace" then KeyOutcome(Some(RemoveChar(index)), true)
    else if ev.key == "Enter" then KeyOutcome(Some(SubmitCode), false)
    else if ev.key == "ArrowLeft" then KeyOutcome(Some(NavigatePrevious(index)), true)
    else if ev.key == "ArrowRight" then KeyOutcome(Some(NavigateNext(index)), true)
    else if ev.key == "ArrowUp" || ev.key == "ArrowDown" then KeyOutcome(None, true)
    else if ev.key == current then KeyOutcome(Some(TypeChar(current, index)), false)
    else if ev.meta || ev.ctrl then KeyOutcome(None, false)
    else
      var hasValue := current != "";
      KeyOutcome(None, hasValue && fullySelected && |ev.key| == 1 && !Test(v, ev.key))
  }

  /** The two key handlers agree except on Ctrl+C and on Ctrl/Meta+Y, which
      the library cancels and the docs copy lets through (re-typing the key
      when it equals the box's character). */
  lemma DocsKeysAgreeWithLibrary(userPrevented: bool, ev: KeyEvent, index: nat, value: Value,
                                 v: Validation, fullySelected: bool)
    ensures !(ev.ctrl && !ev.meta && ev.key == "c") && !((ev.meta || ev.ctrl) && ev.key == "y") ==>
              DocsKeyDownIntent(userPrevented, ev, index, value, v, fullySelected) ==
              KeyDownIntent(userPrevented, ev, index, value, v, fullySelected)
    ensures !userPrevented && ((ev.ctrl && !ev.meta && ev.key == "c") || ((ev.meta || ev.ctrl) && ev.key == "y")) ==>
              && KeyDownIntent(userPrevented, ev, index, value, v, fullySelected) == KeyOutcome(None, true)
              && DocsKeyDownIntent(userPrevented, ev, index, value, v, fullySelected) ==
                 (if ev.key == CurrentCharacter(value, index) then KeyOutcome(Some(TypeChar(ev.key, index)), false)
                  else KeyOutcome(None, false))
  {
  }
}

=== FILE: legacy_input.dfy ===
/** The first, stand-alone six-digit input (src/AuthCodeInput.tsx): an array
    of six strings, one per box, edited by a key handler, a backspace handler
    and a form-level paste handler. Focus targets are read from the six-entry
    ref array with `at`, so a negative index wraps to the last box. */
module LegacyInput {
  import opened Wrappers
  import opened Validation
  import opened Slots

  /** `AUTH_CODE_LENGTH`: the number of decimal digits of 123456. */
  const CodeLength: nat := 6

  /** `getInitialState(length)`: `length` empty strings. */
  function InitialState(length: nat): (r: Value)
    ensures |r| == length && Dense(r) && SingleChars(r)
    ensures Join(r) == ""
    ensures forall i :: 0 <= i < length ==> !Filled(r[i])
  {
    JoinBlanks(length);
    Blanks(length)
  }

  /** The anchored pattern `^[0-9]{0,max}$`, matched one character at a time
      against a shrinking repetition budget. */
  function MatchesDigitsUpTo(text: string, budget: nat): (r: bool)
    ensures r <==> |text| <= budget && forall i :: 0 <= i < |text| ==> IsDigit(text[i])
    decreases |text|
  {
    if text == "" then true
    else budget > 0 && IsDigit(text[0]) && MatchesDigitsUpTo(text[1..], budget - 1)
  }

  /** `isValidCodePaste(text, maxLength)`. */
  function IsValidCodePaste(text: string, maxLength: nat): (ok: bool)
    ensures ok <==> |text| <= maxLength && forall i :: 0 <= i < |text| ==> IsDigit(text[i])
  {
    MatchesDigitsUpTo(text, maxLength)
  }

  /** `createNewCode(text)`: one box per character, padded with empty boxes
      up to the code length. */
  function CreateNewCode(text: string): (r: Value)
    ensures |r| == Max(|text|, CodeLength)
    ensures forall i :: 0 <= i < |text| ==> r[i] == Str([text[i]])
    ensures forall i :: |text| <= i < |r| ==> r[i] == Blank
  {
    Chars(text) + (if |text| < CodeLength then Blanks(CodeLength - |text|) else [])
  }

  /** `validateKeyPress(key)`: the key is a single decimal digit. */
  function ValidateKeyPress(key: string): (ok: bool)
    ensures ok <==> |key| == 1 && IsDigit(key[0])
  {
    Test(Numeric, key)
  }

  /** The code after an event, the box focus moves to, and whether the
      browser's default action was cancelled. */
  datatype Outcome = Outcome(code: Value, focus: Option<nat>, preventDefault: bool)

  /** `handleCodePaste`: the default is always cancelled; a text that is not
      at most six digits leaves everything alone; otherwise it becomes the
      code and focus goes to the box after it (the last box for a full
      code). */
  function HandleCodePaste(code: Value, text: string): (r: Outcome)
    ensures r.preventDefault
    ensures !IsValidCodePaste(text, CodeLength) ==> r == Outcome(code, None, true)
    ensures IsValidCodePaste(text, CodeLength) ==>
              && r.code == CreateNewCode(text)
              && r.focus == Some(if |text| == CodeLength then CodeLength - 1 else |text|)
  {
    if !IsValidCodePaste(text, CodeLength) then Outcome(code, None, true)
    else
      var nextInputIndex := if |text| == CodeLength then |text| - 1 else |text|;
      Outcome(CreateNewCode(text), At(CodeLength, nextInputIndex), true)
  }

  /** `handleBackSpace(index)`: the box is emptied; a filled last box is the
      only thing cleared and focus stays. Otherwise the previous box is
      emptied too (at box 0 the write to index -1 touches no box) and focus
      moves to the previous box, which from box 0 is the last box. */
  function HandleBackSpace(code: Value, index: nat): (r: Outcome)
    requires index < |code|
    ensures |r.code| == |code| && !r.preventDefault
    ensures r.code[index] == Blank
    ensures index == |code| - 1 && Filled(code[index]) ==>
              r.focus.None? && forall j :: 0 <= j < |code| && j != index ==> r.code[j] == code[j]
    ensures !(index == |code| - 1 && Filled(code[index])) ==>
              && (index > 0 ==> r.code[index - 1] == Blank)
              && (forall j :: 0 <= j < |code| && j != index && j + 1 != index ==> r.code[j] == code[j])
              && r.focus == (if index == 0 then Some(CodeLength - 1) else if index - 1 < CodeLength then Some(index - 1) else None)
  {
    var newCode := code[index := Blank];
    if index == |code| - 1 && Filled(code[index]) then Outcome(newCode, None, false)
    else
      var cleared := if index > 0 then newCode[index - 1 := Blank] else newCode;
      Outcome(cleared, At(CodeLength, index as int - 1), false)
  }

  /** `handleInput(index)`, the key handler of box `index`; `mounted` says
      whether the box's element is in the ref array. */
  function HandleKey(code: Value, index: nat, key: string, shift: bool, mounted: bool): (r: Outcome)
    ensures index >= |code| || !mounted ==> r == Outcome(code, None, false)
    ensures index < |code| && mounted && key == "ArrowLeft" ==> r == Outcome(code, At(CodeLength, index as int - 1), false)
    ensures index < |code| && mounted && key == "ArrowRight" ==> r == Outcome(code, At(CodeLength, index + 1), false)
    ensures index < |code| && mounted && key == "Tab" ==>
              r == Outcome(code, if shift then At(CodeLength, index as int - 1) else None, false)
    ensures index < |code| && mounted && key == "Backspace" ==> r == HandleBackSpace(code, index).(preventDefault := true)
    ensures index < |code| && mounted && key !in {"ArrowLeft", "ArrowRight", "Backspace", "Tab"} ==>
              && r.preventDefault
              && (ValidateKeyPress(key) ==> r.code == code[index := Str(key)] && r.focus == At(CodeLength, index + 1))
              && (!ValidateKeyPress(key) ==> r.code == code && r.focus.None?)
  {
    if index > |code| - 1 || !mounted then Outcome(code, None, false)
    else if key == "ArrowLeft" then Outcome(code, At(CodeLength, index as int - 1), false)
    else if key == "ArrowRight" then Outcome(code, At(CodeLength, index + 1), false)
    else if key == "Backspace" then HandleBackSpace(code, index).(preventDefault := true)
    else if key == "Tab" then
      if !shift then Outcome(code, None, false)
      else Outcome(code, At(CodeLength, index as int - 1), false)
    else if !ValidateKeyPress(key) then Outcome(code, None, true)
    else Outcome(code[index := Str(key)], At(CodeLength, index + 1), true)
  }

  /** `resetInput`, run by the form's reset button. */
  function ResetInput(): (r: Value)
    ensures |r| == CodeLength && Join(r) == ""
  {
    InitialState(CodeLength)
  }

  /** The form's submit handler hands `code.join("")` to `onSubmit`: one
      character per filled box, and for a full code exactly its boxes'
      characters in box order. */
  function SubmittedCode(code: Value): (r: string)
    ensures SingleChars(code) ==> |r| == FilledCount(code) <= |code|
    ensures Dense(code) && (forall i :: 0 <= i < |code| ==> |code[i].s| == 1) ==>
              |r| == |code| && forall i :: 0 <= i < |code| ==> [r[i]] == code[i].s
  {
    if !SingleChars(code) then Join(code)
    else
      JoinLength(code);
      if Dense(code) && forall i :: 0 <= i < |code| ==> |code[i].s| == 1 then
        JoinSingles(code);
        Join(code)
      else Join(code)
  }

  // ---------------------------------------------------------------------
  // Properties
  // ---------------------------------------------------------------------

  /** The shape the component keeps: six boxes, each holding "" or one
      character. */
  predicate Shaped(code: Value) {
    |code| == CodeLength && Dense(code) && SingleChars(code)
  }

  /** Every handler keeps the code shaped. */
  lemma HandlersKeepShape(code: Value, index: nat, key: string, shift: bool, mounted: bool, text: string)
    requires Shaped(code)
    ensures Shaped(HandleKey(code, index, key, shift, mounted).code)
    ensures Shaped(HandleCodePaste(code, text).code)
    ensures Shaped(ResetInput())
  {
  }

  /** An accepted paste followed by a submit hands back exactly the pasted
      digits; the code is complete exactly when six digits were pasted. */
  lemma PasteThenSubmit(code: Value, text: string)
    requires IsValidCodePaste(text, CodeLength)
    ensures SubmittedCode(HandleCodePaste(code, text).code) == text
    ensures (forall j :: 0 <= j < CodeLength ==> Filled(HandleCodePaste(code, text).code[j])) <==> |text| == CodeLength
  {
    var r := HandleCodePaste(code, text).code;
    assert r == Chars(text) + Blanks(CodeLength - |text|);
    JoinAppend(Chars(text), Blanks(CodeLength - |text|));
    JoinChars(text);
    JoinBlanks(CodeLength - |text|);
    if |text| < CodeLength {
      assert !Filled(r[|text|]);
    }
  }

  /** Typing the six digits of a code, one per box from box 0, fills the
      boxes in order and moves focus to the next box after each; the
      submitted code is then the typed one. */
  lemma TypingDigitsFillsCode(code: Value, s: string)
    requires Shaped(code) && |s| == CodeLength
    requires forall i :: 0 <= i < |s| ==> IsDigit(s[i])
    ensures SubmittedCode(TypeDigits(code, s, 0)) == s
  {
    TypeDigitsWrites(code, s, 0);
    var r := TypeDigits(code, s, 0);
    assert r == Chars(s);
    JoinChars(s);
  }

  /** Pressing the keys of `s[from..]` in boxes `from`, `from + 1`, … */
  function TypeDigits(code: Value, s: string, from: nat): Value
    requires from <= |s| <= |code|
    decreases |s| - from
  {
    if from == |s| then code
    else TypeDigits(HandleKey(code, from, [s[from]], false, true).code, s, from + 1)
  }

  lemma {:induction false} TypeDigitsWrites(code: Value, s: string, from: nat)
    requires from <= |s| <= |code|
    requires forall i :: 0 <= i < |s| ==> IsDigit(s[i])
    ensures |TypeDigits(code, s, from)| == |code|
    ensures forall i :: 0 <= i < from ==> TypeDigits(code, s, from)[i] == code[i]
    ensures forall i :: from <= i < |s| ==> TypeDigits(code, s, from)[i] == Str([s[i]])
    ensures forall i :: |s| <= i < |code| ==> TypeDigits(code, s, from)[i] == code[i]
    decreases |s| - from
  {
    if from < |s| {
      var key := [s[from]];
      assert key !in {"ArrowLeft", "ArrowRight", "Backspace", "Tab"};
      assert ValidateKeyPress(key);
      var next := HandleKey(code, from, key, false, true).code;
      assert next == code[from := Str(key)];
      TypeDigitsWrites(next, s, from + 1);
    }
  }

  /** Backspace in box 0 of a code whose last box is not the one pressed
      sends focus round to the last box, because `at(-1)` wraps. */
  lemma BackspaceInFirstBoxFocusesLastBox(code: Value)
    requires Shaped(code)
    ensures HandleKey(code, 0, "Backspace", false, true).focus == Some(CodeLength - 1)
    ensures HandleKey(code, 0, "Backspace", false, true).code == code[0 := Blank]
  {
  }

  /** A key that is not a digit changes nothing but is still cancelled, so
      Enter in a box does not submit the form. */
  lemma NonDigitKeyIsSwallowed(code: Value, index: nat)
    requires Shaped(code) && index < CodeLength
    ensures HandleKey(code, index, "Enter", false, true) == Outcome(code, None, true)
    ensures HandleKey(code, index, "a", false, true) == Outcome(code, None, true)
  {
  }
}

=== FILE: presenter.dfy ===
/** The pure decisions of one input box (`AuthCodeInput` in
    src/AuthCode/OneTimePassword.tsx): where a pointer-down sends focus,
    which raw input events become PASTE or TYPE_CHAR, and which key presses
    become which intents. */
module Presenter {
  import opened Wrappers
  import opened Validation
  import opened Slots
  import opened Reducer
  import opened Completion

  /** The character a box shows: `value[index] || ""`. */
  function CurrentCharacter(value: Value, index: nat): (c: string)
    ensures c == Text(Get(value, index))
    ensures c != "" <==> Filled(Get(value, index))
  {
    Text(Get(value, index))
  }

  /** onPointerDown: the registration position to focus, the earlier of this
      box and the first empty box (the last box when none is empty); with no
      registered box the lookup is `undefined`. */
  function PointerDownTarget(value: Value, n: nat, index: nat): (r: Option<nat>)
    ensures n == 0 ==> r.None?
    ensures n > 0 ==> r.Some? && r.value <= index && r.value < n
    ensures r.Some? ==> forall j :: 0 <= j < r.value ==> Filled(Get(value, j))
    ensures r.Some? && r.value != index ==>
              !Filled(Get(value, r.value)) || (r.value == n - 1 && forall j :: 0 <= j < n ==> Filled(Get(value, j)))
    ensures r == Some(index) <==> index < n && forall j :: 0 <= j < index ==> Filled(Get(value, j))
  {
    var firstEmpty := FirstEmpty(value, n);
    var nextEmptyOrLast: int := if firstEmpty.Some? then firstEmpty.value else n as int - 1;
    Index(n, Min(index, nextEmptyOrLast))
  }

  /** onInput: a paste or drop, or a value longer than two characters, is
      handed to PASTE; anything else is left to onChange. */
  function InputEventIntent(inputType: string, newValue: string): (r: Option<Action>)
    ensures r.Some? ==> r.value == Paste(newValue)
    ensures r.Some? <==> inputType == "insertFromPaste" || inputType == "insertFromDrop" || |newValue| > 2
  {
    var isPasteOperation := inputType == "insertFromPaste" || inputType == "insertFromDrop";
    var isLongInput := |newValue| > 2;
    if isPasteOperation || isLongInput then Some(Paste(newValue)) else None
  }

  /** onChange: ignored when the browser reports a pattern mismatch,
      otherwise TYPE_CHAR with the element's whole new value. */
  function ChangeEventIntent(newValue: string, patternMismatch: bool, index: nat): (r: Option<Action>)
    ensures r.Some? <==> !patternMismatch
    ensures r.Some? ==> r.value == TypeChar(newValue, index)
  {
    if patternMismatch then None else Some(TypeChar(newValue, index))
  }

  /** A typed key over a box that already shows the same character produces
      a two-character element value: onInput leaves it alone, and with a
      built-in descriptor the TYPE_CHAR from onChange is rejected. */
  lemma DoubledCharacterIsDropped(value: Value, n: nat, v: Validation, index: nat, s: string)
    requires v.IsBuiltin() && |s| == 2
    ensures InputEventIntent("insertText", s).None?
    ensures Dispatch(value, n, v, TypeChar(s, index)) == NoEffect
  {
  }

  // ---------------------------------------------------------------------
  // Key presses
  // ---------------------------------------------------------------------

  datatype KeyEvent = KeyEvent(key: string, meta: bool, ctrl: bool, shift: bool)

  /** The intent a key press dispatches, and whether the handler cancels the
      browser's default action. */
  datatype KeyOutcome = KeyOutcome(intent: Option<Action>, preventDefault: bool)

  predicate IsUndoShortcut(ev: KeyEvent) {
    (ev.meta || ev.ctrl) && ev.key == "z"
  }

  predicate IsRedoShortcut(ev: KeyEvent) {
    (ev.meta || ev.ctrl) && (ev.key == "y" || (ev.shift && ev.key == "z"))
  }

  predicate IsCopyShortcut(ev: KeyEvent) {
    (ev.meta || ev.ctrl) && ev.key == "c"
  }

  /** onKeyDown, behind `mergeEventHandlers`: the caller's own handler runs
      first, and when it cancelled the event this handler does nothing. The
      element's displayed value is taken to be the box's current character;
      `fullySelected` is the element's selection state. */
  function KeyDownIntent(userPrevented: bool, ev: KeyEvent, index: nat, value: Value,
                         v: Validation, fullySelected: bool): (r: KeyOutcome)
    ensures userPrevented ==> r == KeyOutcome(None, false)
    ensures !userPrevented && ev.meta && ev.key == "c" ==> r == KeyOutcome(None, false)
    ensures !userPrevented && !ev.meta && ev.ctrl && ev.key in {"z", "y", "c"} ==> r == KeyOutcome(None, true)
    ensures !userPrevented && ev.meta && ev.key in {"z", "y"} ==> r == KeyOutcome(None, true)
    ensures !userPrevented && (ev.meta || ev.ctrl) && ev.key == "Backspace" ==> r == KeyOutcome(Some(ClearAll), false)
    ensures !userPrevented && ((!ev.meta && !ev.ctrl && ev.key == "Backspace") || ev.key == "Delete") ==>
              r == KeyOutcome(Some(RemoveChar(index)), true)
    ensures !userPrevented && ev.key == "Enter" ==> r == KeyOutcome(Some(SubmitCode), false)
    ensures !userPrevented && ev.key == "ArrowLeft" ==> r == KeyOutcome(Some(NavigatePrevious(index)), true)
    ensures !userPrevented && ev.key == "ArrowRight" ==> r == KeyOutcome(Some(NavigateNext(index)), true)
    ensures !userPrevented && ev.key in {"ArrowUp", "ArrowDown"} ==> r == KeyOutcome(None, true)
    ensures r.intent.Some? ==> !r.intent.value.Paste? && !r.intent.value.ClearChar?
    ensures r.intent.Some? && r.intent.value.TypeChar? ==>
              r.intent.value == TypeChar(ev.key, index) && ev.key == CurrentCharacter(value, index)
    ensures !userPrevented && ev.key == CurrentCharacter(value, index)
              && ev.key !in {"Delete", "Backspace", "Enter", "ArrowLeft", "ArrowRight", "ArrowUp", "ArrowDown"}
              && !(ev.meta && ev.key == "c") && !IsUndoShortcut(ev) && !IsRedoShortcut(ev) && !IsCopyShortcut(ev) ==>
              r == KeyOutcome(Some(TypeChar(ev.key, index)), false)
    ensures !userPrevented && ev.key != CurrentCharacter(value, index)
              && ev.key !in {"Delete", "Backspace", "Enter", "ArrowLeft", "ArrowRight", "ArrowUp", "ArrowDown"} ==>
              r.intent.None?
    ensures !userPrevented && (ev.meta || ev.ctrl) && ev.key != CurrentCharacter(value, index)
              && ev.key !in {"z", "y", "c", "Delete", "Backspace", "Enter", "ArrowLeft", "ArrowRight", "ArrowUp", "ArrowDown"} ==>
              r == KeyOutcome(None, false)
    ensures !userPrevented && !ev.meta && !ev.ctrl && |ev.key| != 1 && ev.key != CurrentCharacter(value, index)
              && ev.key !in {"Delete", "Backspace", "Enter", "ArrowLeft", "ArrowRight", "ArrowUp", "ArrowDown"} ==>
              r == KeyOutcome(None, false)
    ensures !userPrevented && !ev.meta && !ev.ctrl && |ev.key| == 1 && ev.key != CurrentCharacter(value, index) ==>
              r == KeyOutcome(None, CurrentCharacter(value, index) != "" && fullySelected && !Test(v, ev.key))
  {
    var current := CurrentCharacter(value, index);
    if userPrevented then KeyOutcome(None, false)
    else if ev.meta && ev.key == "c" then KeyOutcome(None, false)
    else if IsUndoShortcut(ev) || IsCopyShortcut(ev) || IsRedoShortcut(ev) then KeyOutcome(None, true)
    else if (ev.meta || ev.ctrl) && ev.key == "Backspace" then KeyOutcome(Some(ClearAll), false)
    else if ev.key == "Delete" || ev.key == "Backspace" then KeyOutcome(Some(RemoveChar(index)), true)
    else if ev.key == "Enter" then KeyOutcome(Some(SubmitCode), false)
    else if ev.key == "ArrowLeft" then KeyOutcome(Some(NavigatePrevious(index)), true)
    else if ev.key == "ArrowRight" then KeyOutcome(Some(NavigateNext(index)), true)
    else if ev.key == "ArrowUp" || ev.key == "ArrowDown" then KeyOutcome(None, true)
    else if ev.key == current then KeyOutcome(Some(TypeChar(current, index)), false)
    else if ev.meta || ev.ctrl then KeyOutcome(None, false)
    else
      var hasValue := current != "";
      KeyOutcome(None, hasValue && fullySelected && |ev.key| == 1 && !Test(v, ev.key))
  }

  /** The undo, redo and copy shortcuts are exactly a modifier with z, y or
      c, and each is swallowed: no intent, default cancelled (Cmd+C alone is
      left to the browser's own copy). */
  lemma ShortcutsAreSuppressed(ev: KeyEvent, index: nat, value: Value, v: Validation, fullySelected: bool)
    ensures IsUndoShortcut(ev) || IsRedoShortcut(ev) || IsCopyShortcut(ev) <==> (ev.meta || ev.ctrl) && ev.key in {"z", "y", "c"}
    ensures !(ev.meta && ev.key == "c") && (IsUndoShortcut(ev) || IsRedoShortcut(ev) || IsCopyShortcut(ev)) ==>
              KeyDownIntent(false, ev, index, value, v, fullySelected) == KeyOutcome(None, true)
  {
  }

  /** Pressing, in a filled box that is not the last, the key of the
      character the box already holds dispatches TYPE_CHAR of that key, and
      the reducer keeps the value and moves focus to the next box. */
  lemma RetypedKeyAdvancesFocus(ev: KeyEvent, value: Value, n: nat, v: Validation, index: nat, fullySelected: bool)
    requires |value| == n && Dense(value)
    requires index + 1 < n && Filled(value[index])
    requires ValidateChar(v, value[index].s)
    requires ev.key == value[index].s && |ev.key| == 1 && !ev.meta && !ev.ctrl
    ensures KeyDownIntent(false, ev, index, value, v, fullySelected) == KeyOutcome(Some(TypeChar(ev.key, index)), false)
    ensures Dispatch(value, n, v, TypeChar(ev.key, index)).update == Some(value)
    ensures Dispatch(value, n, v, TypeChar(ev.key, index)).focus == Some(index + 1)
  {
    TypeSameCharAdvances(value, n, v, index);
  }

  /** Every intent a box can produce from a key press or an input event
      keeps a well-shaped value well shaped, so on every value reached that
      way the watcher's test means "one entry per box, all filled". */
  lemma BoxIntentsPreserveShape(value: Value, n: nat, v: Validation, a: Action)
    requires WellShaped(value, n) && v.IsBuiltin()
    requires !a.ClearChar?
    ensures Dispatch(value, n, v, a).update.Some? ==> WellShaped(Dispatch(value, n, v, a).update.value, n)
    ensures Dispatch(value, n, v, a).update.Some? ==>
              (IsCodeFullyEntered(Dispatch(value, n, v, a).update.value, n) <==>
                 n > 0 && |Dispatch(value, n, v, a).update.value| == n &&
                 forall i :: 0 <= i < n ==> Filled(Dispatch(value, n, v, a).update.value[i]))
  {
    DispatchPreservesShape(value, n, v, a);
  }
}

=== FILE: reducer.dfy ===
/** The intent reducer of the group controller (`dispatch` in
    src/AuthCode/OneTimePassword.tsx): each intent, resolved against the
    current code value and the number of registered boxes, yields the array
    handed to `setValue` (if any), the box to focus (if any), and the string
    handed to the completion callback (SUBMIT_CODE only). */
module Reducer {
  import opened Wrappers
  import opened Validation
  import opened Slots

  /** The closed set of intents a box can dispatch. */
  datatype Action =
    | TypeChar(ch: string, index: nat)
    | Paste(text: string)
    | RemoveChar(index: nat)
    | SubmitCode
    | ClearChar(index: nat)
    | NavigatePrevious(index: nat)
    | NavigateNext(index: nat)
    | ClearAll

  /** What one intent does: `update` is the argument of `setValue`, `focus`
      the registration position handed to `focusInput`, `submitted` the
      string handed to `onComplete` just before the form submission request. */
  datatype Effect = Effect(update: Option<Value>, focus: Option<nat>, submitted: Option<string>)

  const NoEffect: Effect := Effect(None, None, None)

  /** Where TYPE_CHAR writes: the target box if it is filled, else the first
      empty box, else (no box empty) the target box again. */
  function InsertionIndex(value: Value, n: nat, target: nat): (ins: nat)
    ensures Filled(Get(value, target)) ==> ins == target
    ensures ins <= target
    ensures ins != target ==> ins < n && !Filled(Get(value, ins))
    ensures !Filled(Get(value, target)) && (exists j :: 0 <= j < n && !Filled(Get(value, j))) ==>
              ins < n && !Filled(Get(value, ins)) && forall j :: 0 <= j < ins ==> Filled(Get(value, j))
    ensures (forall j :: 0 <= j < n ==> Filled(Get(value, j))) ==> ins == target
  {
    var first := FirstEmpty(value, n);
    if Filled(Get(value, target)) || first.None? then target else first.value
  }

  /** TYPE_CHAR: rebuilds an array of exactly `n` entries, `ch` at the
      insertion index and every other entry copied (holes read as ""). */
  function TypeCharStep(value: Value, n: nat, v: Validation, ch: string, target: nat): (e: Effect)
    ensures !ValidateChar(v, ch) ==> e == NoEffect
    ensures ValidateChar(v, ch) ==> e.update.Some? && e.submitted.None? && |e.update.value| == n
    ensures ValidateChar(v, ch) ==>
              var ins := InsertionIndex(value, n, target);
              && (ins < n ==> e.update.value[ins] == Str(ch))
              && (forall i :: 0 <= i < n && i != ins ==> e.update.value[i] == Str(Text(Get(value, i))))
              && (ins + 1 < n ==> e.focus == Some(ins + 1))
              && (ins + 1 == n ==> e.focus == Some(ins))
              && (ins >= n ==> e.focus == None)
  {
    if !ValidateChar(v, ch) then NoEffect
    else
      var ins := InsertionIndex(value, n, target);
      var newValue := seq(n, i requires 0 <= i < n => if i == ins then Str(ch) else Str(Text(Get(value, i))));
      Effect(Some(newValue), if ins + 1 < n then At(n, ins + 1) else At(n, ins), None)
  }

  /** REMOVE_CHAR: deletes entry `index`, shifts the later entries left and
      pads with blanks up to `n` entries. */
  function RemoveCharStep(value: Value, n: nat, index: nat): (e: Effect)
    ensures e.update.Some? && e.submitted.None?
    ensures index < |value| ==>
              var r := e.update.value;
              && |r| == Max(n, |value| - 1)
              && (forall j :: 0 <= j < index ==> r[j] == value[j])
              && (forall j :: index <= j < |value| - 1 ==> r[j] == value[j + 1])
              && (forall j :: |value| - 1 <= j < |r| ==> r[j] == Blank)
    ensures index >= |value| ==>
              var r := e.update.value;
              && |r| == Max(n, |value|)
              && r[..|value|] == value
              && (forall j :: |value| <= j < |r| ==> r[j] == Blank)
    ensures index > 0 ==> e.focus == (if index - 1 < n then Some(index - 1) else None)
    ensures index == 0 ==> e.focus == (if n > 0 then Some(0) else None)
  {
    var left := value[..Min(index, |value|)];
    var right := value[Min(index + 1, |value|)..];
    var compacted := left + right;
    var padded := compacted + Blanks(Max(0, n - |compacted|));
    Effect(Some(padded), if index != 0 then At(n, index - 1) else At(n, 0), None)
  }

  /** CLEAR_CHAR: `newValue[index] = ""` on a copy. */
  function ClearCharStep(value: Value, index: nat): (e: Effect)
    ensures e.update.Some? && e.focus.None? && e.submitted.None?
    ensures |e.update.value| == Max(|value|, index + 1)
    ensures e.update.value[index] == Blank
    ensures forall j :: 0 <= j < |e.update.value| && j != index ==> e.update.value[j] == Get(value, j)
  {
    Effect(Some(Assign(value, index, Blank)), None, None)
  }

  /** SUBMIT_CODE: reports the joined value, whatever its fill state. */
  function SubmitCodeStep(value: Value): (e: Effect)
    ensures e.update.None? && e.focus.None?
    ensures e.submitted == Some(Join(value))
  {
    Effect(None, None, Some(Join(value)))
  }

  /** PASTE: rejected when no character of the text validates; otherwise the
      first `n` RAW characters of the text, padded with blanks to `n`. */
  function PasteStep(n: nat, v: Validation, text: string): (e: Effect)
    ensures e.submitted.None?
    ensures e == NoEffect <==> forall k :: 0 <= k < |text| ==> !ValidCharacter(v, text[k])
    ensures e.update.Some? <==> exists k :: 0 <= k < |text| && ValidCharacter(v, text[k])
    ensures e.update.Some? ==>
              && |e.update.value| == n
              && (forall j :: 0 <= j < Min(|text|, n) ==> e.update.value[j] == Str([text[j]]))
              && (forall j :: |text| <= j < n ==> e.update.value[j] == Blank)
    ensures e.update.Some? && |text| >= n ==> e.focus == (if n > 0 then Some(n - 1) else None)
    ensures e.update.Some? && |text| < n ==> e.focus == Some(|text|)
  {
    if ValidateString(v, text) == "" then NoEffect
    else
      var pasted := Chars(text[..Min(|text|, n)]);
      var newValue := pasted + Blanks(Max(0, n - |text|));
      Effect(Some(newValue), if |pasted| == n then At(n, -1) else At(n, |text|), None)
  }

  /** NAVIGATE_PREVIOUS: the box before `index`, nothing at box 0. */
  function NavigatePreviousStep(n: nat, index: nat): (e: Effect)
    ensures e.update.None? && e.submitted.None?
    ensures index == 0 ==> e.focus.None?
    ensures index > 0 ==> e.focus == (if index - 1 < n then Some(index - 1) else None)
  {
    if index > 0 then Effect(None, At(n, index - 1), None) else NoEffect
  }

  /** NAVIGATE_NEXT: the next box when this one is filled and not the last;
      otherwise the first empty box, or `inputs.at(-1)` (the last box) when
      every box is filled. */
  function NavigateNextStep(value: Value, n: nat, index: nat): (e: Effect)
    ensures e.update.None? && e.submitted.None?
    ensures Filled(Get(value, index)) && index + 1 < n ==> e.focus == Some(index + 1)
    ensures !(Filled(Get(value, index)) && index + 1 < n) && (exists j :: 0 <= j < n && !Filled(Get(value, j))) ==>
              && e.focus.Some? && e.focus.value < n
              && !Filled(Get(value, e.focus.value))
              && forall j :: 0 <= j < e.focus.value ==> Filled(Get(value, j))
    ensures !(Filled(Get(value, index)) && index + 1 < n) && (forall j :: 0 <= j < n ==> Filled(Get(value, j))) ==>
              e.focus == (if n > 0 then Some(n - 1) else None)
  {
    if Filled(Get(value, index)) && index + 1 < n then Effect(None, At(n, index + 1), None)
    else
      var firstEmpty := FirstEmpty(value, n);
      Effect(None, if firstEmpty.Some? then At(n, firstEmpty.value) else At(n, -1), None)
  }

  /** CLEAR_ALL: the value becomes the empty array (not `n` blanks). */
  function ClearAllStep(n: nat): (e: Effect)
    ensures e.update == Some([]) && e.submitted.None?
    ensures e.focus == (if n > 0 then Some(0) else None)
  {
    Effect(Some([]), At(n, 0), None)
  }

  /** `dispatch`: the reducer over all intents, `n` being the number of
      registered boxes. */
  function Dispatch(value: Value, n: nat, v: Validation, a: Action): (e: Effect)
    ensures e.focus.Some? ==> e.focus.value < n
    ensures e.submitted.Some? <==> a.SubmitCode?
    ensures e.submitted.Some? ==> e.submitted.value == Join(value)
    ensures a.NavigatePrevious? || a.NavigateNext? || a.SubmitCode? ==> e.update.None?
    ensures (a.TypeChar? || a.Paste?) && e.update.Some? ==> |e.update.value| == n
    ensures a.RemoveChar? && |value| <= n ==> e.update.Some? && |e.update.value| == n
    ensures a.ClearAll? ==> e.update == Some([])
  {
    match a
    case TypeChar(ch, index) => TypeCharStep(value, n, v, ch, index)
    case RemoveChar(index) => RemoveCharStep(value, n, index)
    case ClearChar(index) => ClearCharStep(value, index)
    case SubmitCode => SubmitCodeStep(value)
    case Paste(text) => PasteStep(n, v, text)
    case NavigatePrevious(index) => NavigatePreviousStep(n, index)
    case NavigateNext(index) => NavigateNextStep(value, n, index)
    case ClearAll => ClearAllStep(n)
  }

  // ---------------------------------------------------------------------
  // Properties relating the intents to the text the user sees
  // ---------------------------------------------------------------------

  /** REMOVE_CHAR behaves like deleting one character from a text field: the
      joined value loses exactly the text of the removed entry. */
  lemma RemoveCharJoin(value: Value, n: nat, index: nat)
    requires index < |value|
    ensures Join(value) == Join(value[..index]) + Text(value[index]) + Join(value[index + 1..])
    ensures Join(RemoveCharStep(value, n, index).update.value) == Join(value[..index]) + Join(value[index + 1..])
  {
    var left := value[..index];
    var right := value[index + 1..];
    JoinAround(value, index);
    var compacted := left + right;
    var padding := Blanks(Max(0, n - |compacted|));
    assert RemoveCharStep(value, n, index).update.value == compacted + padding;
    JoinAppend(compacted, padding);
    JoinBlanks(Max(0, n - |compacted|));
    JoinAppend(left, right);
  }

  /** The joined value splits around any one entry. */
  lemma JoinAround(value: Value, index: nat)
    requires index < |value|
    ensures Join(value) == Join(value[..index]) + Text(value[index]) + Join(value[index + 1..])
  {
    var tail := value[index..];
    assert value == value[..index] + tail;
    JoinAppend(value[..index], tail);
    assert tail[0] == value[index] && tail[1..] == value[index + 1..];
  }

  /** REMOVE_CHAR at box 0 of an all-blank value leaves it as it was. */
  lemma RemoveCharOnBlanks(n: nat)
    ensures RemoveCharStep(Blanks(n), n, 0).update == Some(Blanks(n))
    ensures RemoveCharStep(Blanks(n), n, 0).focus == (if n > 0 then Some(0) else None)
  {
    var r := RemoveCharStep(Blanks(n), n, 0).update.value;
    assert |r| == n;
    assert forall j :: 0 <= j < n ==> r[j] == Blank;
    assert r == Blanks(n);
  }

  /** An accepted PASTE joins to the first `n` pasted characters, whichever
      of them validate. */
  lemma PasteJoin(n: nat, v: Validation, text: string)
    requires exists k :: 0 <= k < |text| && ValidCharacter(v, text[k])
    ensures PasteStep(n, v, text).update.Some?
    ensures Join(PasteStep(n, v, text).update.value) == text[..Min(|text|, n)]
  {
    var pasted := text[..Min(|text|, n)];
    JoinAppend(Chars(pasted), Blanks(Max(0, n - |text|)));
    JoinChars(pasted);
    JoinBlanks(Max(0, n - |text|));
  }

  /** Pasting "1a2b3c" into six numeric boxes is accepted (some characters
      are digits) and writes all six raw characters, letters included. */
  lemma PasteWritesRawCharacters()
    ensures Dispatch([], 6, Numeric, Paste("1a2b3c")).update == Some(Chars("1a2b3c"))
    ensures Dispatch([], 6, Numeric, Paste("1a2b3c")).focus == Some(5)
  {
    var text := "1a2b3c";
    assert ValidCharacter(Numeric, text[0]);
    var e := PasteStep(6, Numeric, text);
    assert e != NoEffect;
    assert e.update.Some?;
    var r := e.update.value;
    assert forall j :: 0 <= j < 6 ==> r[j] == Chars(text)[j];
    assert r == Chars(text);
  }

  /** Typing the character a filled box already holds rewrites the same
      value and still moves focus to the next box. */
  lemma TypeSameCharAdvances(value: Value, n: nat, v: Validation, index: nat)
    requires |value| == n && Dense(value)
    requires index + 1 < n && Filled(value[index])
    requires ValidateChar(v, value[index].s)
    ensures TypeCharStep(value, n, v, value[index].s, index).update == Some(value)
    ensures TypeCharStep(value, n, v, value[index].s, index).focus == Some(index + 1)
  {
    var r := TypeCharStep(value, n, v, value[index].s, index).update.value;
    assert InsertionIndex(value, n, index) == index;
    assert forall i :: 0 <= i < n ==> r[i] == value[i];
    assert r == value;
  }

  /** NAVIGATE_NEXT from the last box of a value with a gap in the middle
      jumps backwards to the gap. */
  lemma NavigateNextJumpsBackToGap()
    ensures NavigateNextStep([Str("1"), Blank, Str("3"), Str("4")], 4, 3).focus == Some(1)
  {
    var value := [Str("1"), Blank, Str("3"), Str("4")];
    assert !Filled(Get(value, 1));
    assert Filled(Get(value, 0));
  }
}

=== FILE: registry.dfy ===
/** The box registry: every mounted box hands its element to
    `registerInputRef`, and registration order is what focus targets index.
    The library keeps a set of elements (a `Map` to `true`) plus the
    `inputCount` state; the docs copy also records each element's position. */
module Registry {
  import opened Wrappers

  /** A box element's identity. */
  type Element = nat

  predicate Distinct(s: seq<Element>) {
    forall i, j :: 0 <= i < j < |s| ==> s[i] != s[j]
  }

  function Elements(s: seq<Element>): set<Element> {
    set e | e in s
  }

  /** A sequence of distinct elements has as many elements as entries. */
  lemma {:induction false} DistinctCardinality(s: seq<Element>)
    requires Distinct(s)
    ensures |Elements(s)| == |s|
  {
    if |s| > 0 {
      var init := s[..|s| - 1];
      assert Distinct(init);
      DistinctCardinality(init);
      assert Elements(s) == Elements(init) + {s[|s| - 1]};
      assert s[|s| - 1] !in Elements(init);
    }
  }

  // ---------------------------------------------------------------------
  // The library's registry
  // ---------------------------------------------------------------------

  /** The element map's keys in insertion order, and `inputCount`. */
  datatype Boxes = Boxes(order: seq<Element>, count: nat)

  predicate ValidBoxes(b: Boxes) {
    Distinct(b.order) && b.count == |b.order|
  }

  /** `registerInputRef(ref)`: a non-null element not yet present is added at
      the end and `inputCount` becomes the map's size; anything else leaves
      the registry unchanged. */
  function Register(b: Boxes, ref: Option<Element>): (r: Boxes)
    ensures ref.Some? && ref.value !in b.order ==> r.order == b.order + [ref.value] && r.count == |r.order|
    ensures ref.None? || ref.value in b.order ==> r == b
    ensures Elements(r.order) == Elements(b.order) + (if ref.Some? then {ref.value} else {})
    ensures ValidBoxes(b) ==> ValidBoxes(r)
  {
    if ref.Some? && ref.value !in b.order then
      var order := b.order + [ref.value];
      Boxes(order, |order|)
    else b
  }

  /** Registering the same element twice is the same as registering it once. */
  lemma RegisterIdempotent(b: Boxes, ref: Option<Element>)
    ensures Register(Register(b, ref), ref) == Register(b, ref)
  {
  }

  /** In a valid registry the box count is the number of distinct elements. */
  lemma CountIsDistinctElements(b: Boxes)
    requires ValidBoxes(b)
    ensures b.count == |Elements(b.order)|
  {
    DistinctCardinality(b.order);
  }

  // ---------------------------------------------------------------------
  // The docs copy's registry, which records positions
  // ---------------------------------------------------------------------

  /** The element map (element to position) with its insertion order, and
      `inputCount`. */
  datatype PositionedBoxes = PositionedBoxes(order: seq<Element>, position: map<Element, nat>, count: nat)

  predicate ValidPositioned(b: PositionedBoxes) {
    && Distinct(b.order)
    && b.position.Keys == Elements(b.order)
    && (forall i :: 0 <= i < |b.order| ==> b.position[b.order[i]] == i)
    && b.count == |b.order|
  }

  /** The docs copy's `registerInputRef(ref)`: a new element is stored with
      the map's size as its position, and `inputCount` becomes the new size. */
  function RegisterPositioned(b: PositionedBoxes, ref: Option<Element>): (r: PositionedBoxes)
    ensures ref.None? || ref.value in b.position ==> r == b
    ensures ref.Some? && ref.value !in b.position ==>
              r.order == b.order + [ref.value] && r.position == b.position[ref.value := |b.position|]
    ensures ValidPositioned(b) ==> ValidPositioned(r)
  {
    if ref.Some? && ref.value !in b.position then
      var position := |b.position|;
      var positions := b.position[ref.value := position];
      var r := PositionedBoxes(b.order + [ref.value], positions, |positions|);
      PositionedStaysValid(b, ref.value);
      r
    else b
  }

  lemma PositionedStaysValid(b: PositionedBoxes, x: Element)
    requires x !in b.position
    ensures ValidPositioned(b) ==>
              var positions := b.position[x := |b.position|];
              ValidPositioned(PositionedBoxes(b.order + [x], positions, |positions|))
  {
    if ValidPositioned(b) {
      var order := b.order + [x];
      var positions := b.position[x := |b.position|];
      MapSizeIsOrderLength(b.position, b.order);
      assert Elements(order) == Elements(b.order) + {x};
      assert Distinct(order);
      MapSizeIsOrderLength(positions, order);
      forall i | 0 <= i < |order|
        ensures positions[order[i]] == i
      {
        if i < |b.order| {
          assert order[i] == b.order[i];
        }
      }
    }
  }

  /** A map keyed by exactly the elements of a distinct list has one entry
      per list entry. */
  lemma MapSizeIsOrderLength(m: map<Element, nat>, order: seq<Element>)
    requires Distinct(order) && m.Keys == Elements(order)
    ensures |m| == |order|
  {
    DistinctCardinality(order);
    assert |m| == |m.Keys|;
  }

  /** The position shown in a box's label: the recorded position plus one
      once the box's element is known, the `index` prop plus one before. */
  function InputPosition(b: PositionedBoxes, ref: Option<Element>, index: nat): (r: nat)
    ensures r >= 1
    ensures ref.None? ==> r == index + 1
    ensures ValidPositioned(b) && ref.Some? && ref.value in b.position ==> r <= b.count && b.order[r - 1] == ref.value
    ensures ref.Some? && ref.value !in b.position ==> r == 1
  {
    if ref.Some? then (if ref.value in b.position then b.position[ref.value] else 0) + 1
    else index + 1
  }

  /** A registered box is labelled with its one-based registration position. */
  lemma LabelIsRegistrationPosition(b: PositionedBoxes, i: nat, index: nat)
    requires ValidPositioned(b) && i < |b.order|
    ensures InputPosition(b, Some(b.order[i]), index) == i + 1
  {
  }

  /** The two registries see the same elements in the same order and agree
      on the box count. */
  lemma RegistriesAgree(b: Boxes, p: PositionedBoxes, ref: Option<Element>)
    requires ValidBoxes(b) && ValidPositioned(p) && b.order == p.order
    ensures Register(b, ref).order == RegisterPositioned(p, ref).order
    ensures Register(b, ref).count == RegisterPositioned(p, ref).count
  {
  }
}

=== FILE: slots.dfy ===
/** The code value of a group: one slot per input box, as the JavaScript
    array of strings the controller keeps, together with the reading
    conventions the controller applies to it. */
module Slots {
  import opened Wrappers

  /** One array entry. `Hole` is an index the array does not hold (a sparse
      hole, or a read past the end): JavaScript reads it as `undefined`. */
  datatype Slot = Hole | Str(s: string)

  type Value = seq<Slot>

  const Blank: Slot := Str("")

  /** `value[i]`: past the end it reads as `undefined`. */
  function Get(value: Value, i: nat): Slot {
    if i < |value| then value[i] else Hole
  }

  /** JavaScript truthiness of an entry: only a non-empty string is truthy. */
  predicate Filled(slot: Slot) {
    slot.Str? && slot.s != ""
  }

  /** `entry ?? ""`, which is also how `join("")` renders an entry. */
  function Text(slot: Slot): string {
    if slot.Str? then slot.s else ""
  }

  /** `value.join("")`. */
  function Join(value: Value): string {
    if |value| == 0 then "" else Text(value[0]) + Join(value[1..])
  }

  /** `Array(k).fill("")`. */
  function Blanks(k: nat): (r: Value)
    ensures |r| == k
    ensures forall i :: 0 <= i < k ==> r[i] == Blank
  {
    seq(k, _ => Blank)
  }

  /** `Array.from(s)`: one single-character entry per character. */
  function Chars(s: string): (r: Value)
    ensures |r| == |s|
    ensures forall i :: 0 <= i < |s| ==> r[i] == Str([s[i]])
  {
    seq(|s|, i requires 0 <= i < |s| => Str([s[i]]))
  }

  /** `copy[index] = x` on a copy of the array: writing past the end extends
      it, leaving holes between the old end and `index`. */
  function Assign(value: Value, index: nat, x: Slot): (r: Value)
    ensures |r| == Max(|value|, index + 1)
    ensures r[index] == x
    ensures forall j :: 0 <= j < |r| && j != index ==> r[j] == Get(value, j)
  {
    if index < |value| then value[index := x]
    else value + seq(index - |value|, _ => Hole) + [x]
  }

  /** The characters of `s` followed by blanks up to `n` boxes. */
  function Prefix(s: string, n: nat): (r: Value)
    requires |s| <= n
    ensures |r| == n
  {
    Chars(s) + Blanks(n - |s|)
  }

  /** The first `i` in `[from, n)` whose entry is falsy: the controller's
      `Array.from({ length: n }).findIndex((_, i) => !value[i])`. */
  function FirstEmptyFrom(value: Value, n: nat, from: nat): (r: Option<nat>)
    requires from <= n
    decreases n - from
    ensures r.Some? ==> from <= r.value < n && !Filled(Get(value, r.value))
    ensures r.Some? ==> forall j :: from <= j < r.value ==> Filled(Get(value, j))
    ensures r.None? <==> forall j :: from <= j < n ==> Filled(Get(value, j))
  {
    if from == n then None
    else if !Filled(Get(value, from)) then Some(from)
    else FirstEmptyFrom(value, n, from + 1)
  }

  /** The first box among the `n` registered ones whose entry is falsy, or
      None (`-1`) when all of them are filled. */
  function FirstEmpty(value: Value, n: nat): (r: Option<nat>)
    ensures r.Some? ==> r.value < n && !Filled(Get(value, r.value))
    ensures r.Some? ==> forall j :: 0 <= j < r.value ==> Filled(Get(value, j))
    ensures r.None? <==> forall j :: 0 <= j < n ==> Filled(Get(value, j))
  {
    FirstEmptyFrom(value, n, 0)
  }

  /** `inputs.at(k)` over `n` registered boxes, as a box position: a negative
      `k` counts from the end, anything out of range is `undefined`. */
  function At(n: nat, k: int): (r: Option<nat>)
    ensures r.Some? ==> r.value < n
    ensures 0 <= k < n ==> r == Some(k)
    ensures k < 0 && 0 <= n + k ==> r == Some(n + k)
    ensures k >= n || n + k < 0 ==> r == None
  {
    if 0 <= k < n then Some(k)
    else if k < 0 && 0 <= n + k then Some(n + k)
    else None
  }

  /** `inputs[k]` over `n` registered boxes: a negative index is a property
      lookup, not an element, so it is `undefined`. */
  function Index(n: nat, k: int): (r: Option<nat>)
    ensures r.Some? <==> 0 <= k < n
    ensures r.Some? ==> r.value == k
  {
    if 0 <= k < n then Some(k) else None
  }

  /** The number of truthy entries. */
  function FilledCount(value: Value): (r: nat)
    ensures r <= |value|
  {
    if |value| == 0 then 0
    else (if Filled(value[0]) then 1 else 0) + FilledCount(value[1..])
  }

  /** Every entry is a string (the array has no holes). */
  predicate Dense(value: Value) {
    forall i :: 0 <= i < |value| ==> value[i].Str?
  }

  /** Every entry holds at most one character. */
  predicate SingleChars(value: Value) {
    forall i :: 0 <= i < |value| ==> |Text(value[i])| <= 1
  }

  // ---------------------------------------------------------------------
  // Lemmas about joining
  // ---------------------------------------------------------------------

  lemma {:induction false} JoinAppend(a: Value, b: Value)
    ensures Join(a + b) == Join(a) + Join(b)
  {
    if |a| == 0 {
      assert a + b == b;
    } else {
      assert (a + b)[0] == a[0];
      assert (a + b)[1..] == a[1..] + b;
      JoinAppend(a[1..], b);
    }
  }

  lemma {:induction false} JoinBlanks(k: nat)
    ensures Join(Blanks(k)) == ""
  {
    if k > 0 {
      assert Blanks(k)[1..] == Blanks(k - 1);
      JoinBlanks(k - 1);
    }
  }

  /** Joining the characters of a string gives the string back. */
  lemma {:induction false} JoinChars(s: string)
    ensures Join(Chars(s)) == s
  {
    if |s| > 0 {
      assert Chars(s)[1..] == Chars(s[1..]);
      JoinChars(s[1..]);
      assert s == [s[0]] + s[1..];
    }
  }

  /** A prefix padded with blanks joins to the prefix. */
  lemma JoinPrefix(s: string, n: nat)
    requires |s| <= n
    ensures Join(Prefix(s, n)) == s
  {
    JoinAppend(Chars(s), Blanks(n - |s|));
    JoinChars(s);
    JoinBlanks(n - |s|);
  }

  /** When no entry holds more than one character, the joined string is as
      long as the number of filled entries. */
  lemma {:induction false} JoinLength(value: Value)
    requires SingleChars(value)
    ensures |Join(value)| == FilledCount(value)
  {
    if |value| > 0 {
      assert |Text(value[0])| <= 1;
      assert SingleChars(value[1..]) by {
        forall i | 0 <= i < |value[1..]|
          ensures |Text(value[1..][i])| <= 1
        {
          assert value[1..][i] == value[i + 1];
        }
      }
      JoinLength(value[1..]);
    }
  }

  /** All entries are filled exactly when the filled count is the length. */
  lemma {:induction false} FilledCountFull(value: Value)
    ensures FilledCount(value) == |value| <==> forall i :: 0 <= i < |value| ==> Filled(value[i])
  {
    if |value| > 0 {
      FilledCountFull(value[1..]);
      if forall i :: 0 <= i < |value| ==> Filled(value[i]) {
        assert forall i :: 0 <= i < |value[1..]| ==> Filled(value[1..][i]) by {
          forall i | 0 <= i < |value[1..]|
            ensures Filled(value[1..][i])
          {
            assert value[1..][i] == value[i + 1];
          }
        }
      }
      if FilledCount(value) == |value| {
        forall i | 0 <= i < |value|
          ensures Filled(value[i])
        {
          if i > 0 {
            assert value[i] == value[1..][i - 1];
          }
        }
      }
    }
  }

  /** Joining single-character entries keeps one character per entry, in
      order. */
  lemma {:induction false} JoinSingles(value: Value)
    requires Dense(value)
    requires forall i :: 0 <= i < |value| ==> |value[i].s| == 1
    ensures |Join(value)| == |value|
    ensures forall i :: 0 <= i < |value| ==> [Join(value)[i]] == value[i].s
  {
    if |value| > 0 {
      var tail := value[1..];
      assert forall i :: 0 <= i < |tail| ==> tail[i] == value[i + 1];
      JoinSingles(tail);
      assert Join(value) == value[0].s + Join(tail);
      forall i | 0 <= i < |value|
        ensures [Join(value)[i]] == value[i].s
      {
        if i == 0 {
          assert Join(value)[0] == value[0].s[0];
        } else {
          assert Join(value)[i] == Join(tail)[i - 1];
        }
      }
    }
  }
}

=== FILE: validation.dfy ===
/** Per-character validation of a code group: the three built-in descriptors
    (numeric, alpha, alphanumeric) and a caller-supplied custom matcher, with
    the single-character check and the string filter built on top of them. */
module Validation {

  predicate IsDigit(c: char) {
    '0' <= c <= '9'
  }

  predicate IsAsciiLetter(c: char) {
    ('a' <= c <= 'z') || ('A' <= c <= 'Z')
  }

  /** The active validation descriptor. A custom descriptor carries its
      matcher as a total predicate on strings: it stands for `regex.test`,
      whose regular-expression semantics are not modelled. */
  datatype Validation =
    | Numeric
    | Alpha
    | Alphanumeric
    | Custom(test: string -> bool)
  {
    predicate IsBuiltin() {
      !Custom?
    }
  }

  /** `regex.test(s)` for the descriptor's regex. The built-in regexes are
      anchored at both ends and match exactly one character of their class. */
  function Test(v: Validation, s: string): bool {
    match v
    case Numeric => |s| == 1 && IsDigit(s[0])
    case Alpha => |s| == 1 && IsAsciiLetter(s[0])
    case Alphanumeric => |s| == 1 && (IsAsciiLetter(s[0]) || IsDigit(s[0]))
    case Custom(test) => test(s)
  }

  /** `validateChar`: the empty string always passes; anything else must
      satisfy the descriptor's regex. */
  function ValidateChar(v: Validation, s: string): (ok: bool)
    ensures s == "" ==> ok
    ensures v.IsBuiltin() && s != "" ==> (ok ==> |s| == 1)
    ensures v.Numeric? ==> (ok <==> s == "" || (|s| == 1 && IsDigit(s[0])))
    ensures v.Alpha? ==> (ok <==> s == "" || (|s| == 1 && IsAsciiLetter(s[0])))
    ensures v.Alphanumeric? ==> (ok <==> s == "" || (|s| == 1 && (IsAsciiLetter(s[0]) || IsDigit(s[0]))))
    ensures v.Custom? ==> (ok <==> s == "" || v.test(s))
  {
    s == "" || Test(v, s)
  }

  /** Whether the single character `c` passes `validateChar`. */
  predicate ValidCharacter(v: Validation, c: char) {
    ValidateChar(v, [c])
  }

  /** `validateString`: keeps the characters that pass `validateChar`, in
      their original order, and drops the rest. */
  function ValidateString(v: Validation, s: string): (r: string)
    ensures |r| <= |s|
    ensures forall i :: 0 <= i < |r| ==> ValidCharacter(v, r[i])
    ensures r == "" <==> forall i :: 0 <= i < |s| ==> !ValidCharacter(v, s[i])
    ensures (forall i :: 0 <= i < |s| ==> ValidCharacter(v, s[i])) ==> r == s
  {
    if s == "" then ""
    else
      var rest := ValidateString(v, s[1..]);
      assert forall i :: 1 <= i < |s| ==> s[i] == s[1..][i - 1];
      if ValidCharacter(v, s[0]) then [s[0]] + rest else rest
  }

  /** Filtering distributes over concatenation: together with the behaviour
      on a single character this pins `validateString` down completely. */
  lemma {:induction false} ValidateStringAppend(v: Validation, a: string, b: string)
    ensures ValidateString(v, a + b) == ValidateString(v, a) + ValidateString(v, b)
  {
    if a == "" {
      assert a + b == b;
    } else {
      assert (a + b)[0] == a[0];
      assert (a + b)[1..] == a[1..] + b;
      ValidateStringAppend(v, a[1..], b);
    }
  }

  /** Filtering an already filtered string changes nothing. */
  lemma ValidateStringIdempotent(v: Validation, s: string)
    ensures ValidateString(v, ValidateString(v, s)) == ValidateString(v, s)
  {
  }

  /** With a built-in descriptor, the filtered string holds only characters of
      the descriptor's class. */
  lemma ValidateStringNumeric(s: string)
    ensures forall i :: 0 <= i < |ValidateString(Numeric, s)| ==> IsDigit(ValidateString(Numeric, s)[i])
    ensures ValidateString(Numeric, s) == "" <==> forall i :: 0 <= i < |s| ==> !IsDigit(s[i])
  {
  }
}

=== FILE: wrappers.dfy ===
/** The optional value used throughout the model for "maybe a focus target",
    "maybe a new value" and JavaScript's `undefined`. */
module Wrappers {

  datatype Option<+T> = None | Some(value: T) {

    /** The carried value, falling back to `default` for None (`?? default`). */
    function GetOr(default: T): T {
      match this
      case Some(v) => v
      case None => default
    }
  }

  function Min(a: int, b: int): int {
    if a <= b then a else b
  }

  function Max(a: int, b: int): int {
    if a >= b then a else b
  }
}
